=== FILE: README.md ===
# ffxiv-arbitrage in Dafny

A model of the arbitrage bot for the Final Fantasy XIV market board. The bot keeps a
snapshot of every marketable item's market board, fetched in bulk from the Universalis
HTTP API and cached on disk. It listens to the Universalis websocket for new sales and
listings across the worlds. A listing on any world, the home world included, whose purchase
and resale on the home world would make a profit that reaches a threshold triggers a Discord
notification. Sales are
buffered into a database, and a sale on the home world asks the HTTP scraper for a fresh
snapshot of that item.

The model is functional. Python exceptions become `Faults.Fault` values in a `Result`,
and decoded JSON/BSON documents become the `Json.Json` datatype. Each global that the
source mutates is threaded through explicitly:

- the rate limiter's counter;
- the notification deduplication window;
- the database row buffer;
- the arbitrager's board.

HTTP answers, the clock, the stop signal and message formatting are parameters of the
operations that use them.

Three details of the code the model keeps:

- A fetch accepts 0 ids: the assertion is `0 <= len(item_ids) <= 100`.
- After the retries run out, the last response is decoded whatever its status.
- The database buffer flushes at 25 rows.

Modules, following the source's files:

| module | models |
|---|---|
| `Wrappers`, `Faults` | `Option`, `Result`, and the exceptions the code can raise |
| `Json` | decoded documents and Python's `bool(v)`, `key in v`, `v[key]`, `.items()` and list comprehensions over them |
| `Decimal` | `str(int)` and its inverse, used for item ids and world ids in keys and channel names |
| `Helpers` | `arbitrage/helpers.py`: `batcher`, `RateLimiter`, and `dispatch_discord_notification` with its window of the nine most recent messages |
| `Universalis` | `arbitrage/universalis.py`: the record types, their parsers, and encoders that invert them |
| `MinPrices` | `MarketBoardCurrentData.min_listings` and `min_listing_on_world` |
| `BulkFetch` | `get_market_board_current_data` (retry with back-off, response normalisation) and `get_market_board` (cache freshness, batch loop, stop signal) |
| `Db` | `arbitrage/db.py`: `DbParameters.is_valid` and the 25-row insert buffer |
| `Events` | `arbitrage/events.py`: the event type tags and constructors |
| `App` | `app.py`: the arbitrager's handlers and loop, the HTTP scraper's step, and the websocket client's subscriptions and message decoding |
| `ItemPriceScript` | `scripts/current_item_price.py`: `get_property`, its batcher, and `rate_limit` |

## Model

| member | source | states |
|---|---|---|
| Json.Get | arbitrage/universalis.py:31-41 | `obj[key]` succeeds exactly on an object holding the key and returns the value bound to it; a missing key raises `KeyError(key)`, and a non-object raises `TypeError` |
| Json.LookupFound | arbitrage/universalis.py:31-41 | a key lookup finds a binding exactly when some field carries that key, and the value found is that field's value |
| Json.ValuesAreLookups | arbitrage/universalis.py:205 | on an object with distinct keys, as every decoded object is, `.items()` visits one value per field in insertion order, each the value `obj[key]` returns for that field's key |
| Json.ParseAll | arbitrage/universalis.py:87 | the list comprehension succeeds iff every element parses, giving one result per element in order; otherwise it raises the first element's error |
| Json.ParseAllRoundTrip | arbitrage/universalis.py:87 | parsing the element-wise images of values under an inverse encoder gives the values back |
| Decimal.NatToString | app.py:58-59 | `str(n)` of a natural is a non-empty digit string with no leading zero |
| Decimal.IntRoundTrip | app.py:58-59 | `str(n)` can be read back to `n` for every integer, negatives included |
| Helpers.Batcher | arbitrage/helpers.py:16-24 | the generator's loop yields non-empty batches of at most `n` elements that concatenate back to the input, all full except the last, and equal to `Batches` |
| Helpers.BatchesIsBatching | arbitrage/helpers.py:16-24 | the batches preserve order and content, are non-empty, and are full-width except the last |
| Helpers.BatchingIsUnique | arbitrage/helpers.py:16-24 | any splitting with those properties is the one `batcher` produces |
| Helpers.Increase | arbitrage/helpers.py:31-35 | a call counts; on reaching the limit it pauses and resets the counter to 0, so the counter stays below the limit |
| Helpers.PausesEveryNthCall | arbitrage/helpers.py:27-35 | from a fresh limiter, k calls pause k div N times and leave the counter at k mod N |
| Helpers.DispatchNotification | arbitrage/helpers.py:40-55 | a message already in the window is skipped; without a webhook nothing is sent; otherwise the message is posted and appended, the oldest entry is dropped at 10, and the limiter counts the post |
| Helpers.DispatchAll | arbitrage/helpers.py:40-55 | a run of dispatches gives one result per message |
| Helpers.WindowStaysDistinctAndBounded | arbitrage/helpers.py:42-50 | the window never holds a message twice and holds fewer than 10 messages |
| Helpers.AmongLastSurvivesDispatches | arbitrage/helpers.py:48-50 | a message among the last k of the window is still among the last k+m after m more dispatches, while that stays within the window |
| Helpers.RepeatWithinWindowIsSuppressed | arbitrage/helpers.py:42-44 | a message posted once and repeated within the next eight dispatches is not posted again |
| Universalis.ParseSaleEvent | arbitrage/universalis.py:83-88 | a parsed sale event carries the message's `item` and `world` and one parsed line per `sales` element |
| Universalis.ParseListingEvent | arbitrage/universalis.py:119-124 | a parsed listing event carries the message's `item` and `world` and one parsed line per `listings` element |
| Universalis.ParseMarketBoardCurrentData | arbitrage/universalis.py:173-183 | a parsed snapshot is stamped with the clock reading taken while parsing |
| Universalis.ListingRoundTrip | arbitrage/universalis.py:31-41 | `parse_listing` reads each of the eight fields from its own key |
| Universalis.SaleEventLineRoundTrip | arbitrage/universalis.py:65-73 | `parse_sale_event_line` reads each of the six fields from its own key |
| Universalis.ListingEventLineRoundTrip | arbitrage/universalis.py:101-109 | `parse_listing_event_line` reads each of the six fields from its own key |
| Universalis.RecentHistoryRoundTrip | arbitrage/universalis.py:127-136 | `parse_recent_history` reads each of the seven fields from its own key |
| Universalis.SaleEventRoundTrip | arbitrage/universalis.py:83-88 | a sale message parses back to the sale event it describes |
| Universalis.ListingEventRoundTrip | arbitrage/universalis.py:119-124 | a listing message parses back to the listing event it describes |
| Universalis.MarketBoardCurrentDataRoundTrip | arbitrage/universalis.py:173-183 | a snapshot document parses back to the snapshot, when the clock reads the snapshot's update time |
| MinPrices.GroupMin | arbitrage/universalis.py:162 | the per-group minimum is the price of some listing of the group, and no listing of the group is cheaper |
| MinPrices.GroupsFacts | arbitrage/universalis.py:162 | the `(world, hq)` groups are distinct, and every listing's group appears among them |
| MinPrices.GroupRowsDistinct | arbitrage/universalis.py:162-164 | one row per group: no two rows share a `(world, hq)` key |
| MinPrices.GroupRowsCover | arbitrage/universalis.py:162-164 | every listing's group has a row |
| MinPrices.GroupRowsMin | arbitrage/universalis.py:162-164 | every row carries its group's minimum price |
| MinPrices.InsertFacts | arbitrage/universalis.py:162 | inserting into a price-sorted list keeps it sorted, adds one element, and adds exactly that element |
| MinPrices.SortFacts | arbitrage/universalis.py:162 | sorting by price gives a sorted list of the same length and elements, and keeps keys distinct |
| MinPrices.MinListings | arbitrage/universalis.py:149-164 | no listings give `[]`; otherwise each group has exactly one row carrying its minimum price, and the rows are sorted by price |
| MinPrices.FindPrice | arbitrage/universalis.py:165-170 | the scan returns the price of the row with the requested key, or 0 when there is none |
| MinPrices.MinListingOnWorld | arbitrage/universalis.py:165-170 | the result is 0 when the world has no listing of that quality, and otherwise that group's minimum price |
| BulkFetch.Retry | arbitrage/universalis.py:192-201 | requests repeat while the status is not 200, up to 7 retries with delays 2, 4, 8, …; the response kept is the first 200 or the eighth; running out of answers raises |
| BulkFetch.RetryFromFailure | arbitrage/universalis.py:192-201 | the loop raises only when every remaining answer failed and the answers ran out before the retries did |
| BulkFetch.RetryFromKept | arbitrage/universalis.py:192-201 | the response kept is the first 200 from the current request on, or the one at which the retries ran out; one sleep precedes each retry |
| BulkFetch.RetryFromDelays | arbitrage/universalis.py:193-199 | the sleeps start at the current delay and double each time, so the `j`-th lasts `2^(i+j+1)` seconds |
| BulkFetch.RetryWaitIsBounded | arbitrage/universalis.py:192-200 | the total back-off of one fetch is at most 254 seconds |
| BulkFetch.FirstOkIsKept | arbitrage/universalis.py:194-196 | a first answer with status 200 is used without retrying |
| BulkFetch.NormaliseShapes | arbitrage/universalis.py:203-208 | an `items` document yields one snapshot per entry, in order; a `hasData` document yields one snapshot; any other object yields `[]`; a non-dict `items` raises `AttributeError` |
| BulkFetch.ItemsResponseRoundTrip | arbitrage/universalis.py:204-205 | a multi-item response built from snapshots of distinct items keys them by distinct id strings, as a decoded dict does, and normalises back to those snapshots in order |
| BulkFetch.SingleResponseRoundTrip | arbitrage/universalis.py:206-207 | a single-item response normalises back to its one snapshot |
| BulkFetch.FetchItemsFailures | arbitrage/universalis.py:187-208 | more than 100 ids raise `AssertionError` before any request; running out of answers raises `ConnectionError`; a body that is not JSON raises `JsonDecodeError`; an empty or falsy decoded body raises `AssertionError` |
| BulkFetch.FetchCurrentData | arbitrage/universalis.py:186-212 | a fetch succeeds exactly when the request succeeds, returns its snapshots, and advances the limiter by exactly two calls (`IncreaseTimes(rl, 2)`), so `PausesEveryNthCall` counts its pauses |
| BulkFetch.FetchOfGoodResponse | arbitrage/universalis.py:186-208 | with at most 100 ids, a first 200 answer carrying snapshots of distinct items gives exactly those snapshots |
| BulkFetch.PutAllFacts | arbitrage/universalis.py:237-238 | after the merge, every fetched item is on the board, the last snapshot of an item wins, and untouched entries stay |
| BulkFetch.PutAllKeys | arbitrage/universalis.py:237-238 | the merged board's keys are the old keys and the fetched ids, and entries no snapshot mentions are unchanged |
| BulkFetch.PutAllLastWins | arbitrage/universalis.py:237-238 | a fetched id maps to the last snapshot carrying it |
| BulkFetch.PutAllKeepsKeyedById | arbitrage/universalis.py:237-238 | a board keyed by item id stays keyed by item id |
| BulkFetch.PutAllAppend | arbitrage/universalis.py:233-238 | merging two lists in turn equals merging their concatenation |
| BulkFetch.RunStopsOnlyOnSignal | arbitrage/universalis.py:233-235 | the batch loop returns an empty board only when the stop signal was seen before some batch |
| BulkFetch.RunFailsOnlyOnFetch | arbitrage/universalis.py:236 | the batch loop raises only when some batch's fetch raised |
| BulkFetch.RunCompletedSawNoStop | arbitrage/universalis.py:233-235 | a completed loop saw no stop signal before any batch |
| BulkFetch.RunCompletedFetchedAll | arbitrage/universalis.py:233-236 | a completed loop fetched every batch, in order |
| BulkFetch.RunCompletedMergesAll | arbitrage/universalis.py:233-238 | a completed loop's board is every fetched snapshot merged in order |
| BulkFetch.RunCompletesWithoutStop | arbitrage/universalis.py:233-238 | without a stop signal and with every fetch succeeding, the loop completes |
| BulkFetch.GetMarketBoard | arbitrage/universalis.py:215-244 | the cached board is used exactly when the cache is younger than the maximum age; a stop gives `{}`; a rebuilt board is keyed by item id and is `{}` with every batch's fetched snapshots put in, batch after batch, so a later snapshot of an id overwrites an earlier one |
| BulkFetch.RebuildBatchesFitOneRequest | arbitrage/universalis.py:229-236 | every batch of the rebuild satisfies the single fetch's limit of 100 ids |
| Db.All | arbitrage/db.py:38-39 | `all([...])` holds exactly when every element is truthy |
| Db.IsValidIsAll | arbitrage/db.py:38-39 | the parameters are valid exactly when host, port, user, password and database name are all truthy |
| Db.FlushRows | arbitrage/db.py:66-74 | an empty buffer is not written; otherwise the whole buffer is written, in order, and cleared |
| Db.InsertRow | arbitrage/db.py:58-63 | the row is appended; a write happens exactly when the buffer reaches 25, and then clears it; the buffer stays below 25 |
| Db.InsertAllKeepsEveryRow | arbitrage/db.py:58-74 | successive inserts write every row once, in order, or leave it buffered |
| Db.InsertAllWritesFullBuffers | arbitrage/db.py:58-63 | every write made by inserts holds exactly 25 rows |
| Events.Classify | arbitrage/events.py:4-8 | a recognised type string is exactly the name of its tag |
| Events.ClassifyTagName | arbitrage/events.py:4-8 | each tag's name is recognised as that tag |
| Events.TagNamesDistinct | arbitrage/events.py:4-8 | the four event type names are pairwise different |
| Events.MakeSale | arbitrage/events.py:14-19 | `Event.sale` builds a sale-typed event carrying its arguments |
| Events.MakeListing | arbitrage/events.py:14-22 | `Event.listing` builds a listing-typed event carrying its arguments |
| Events.MakeUpdateItem | arbitrage/events.py:14-25 | `Event.update_item` builds a refresh-typed event carrying its arguments |
| Events.MakeUpdateMarketBoard | arbitrage/events.py:14-28 | `Event.update_market_board` builds a board-update event carrying its arguments |
| App.OnUpdateMarketBoard | app.py:112-117 | each snapshot replaces its item's entry, the last one for an item winning; other entries, the buffer and the window do not change |
| App.OnSale | app.py:118-125 | with the database configured, every sale line reaches the buffer or a write, in order; exactly one refresh request is sent, and only for a home-world sale |
| App.AssessLine | app.py:134-138 | an alert exactly when the profit after both taxes reaches the threshold; the resale price is the home world's minimum for that quality, or 0; the ratio is that price over the high-quality average for a high-quality line and the normal-quality average otherwise, so a zero average raises `ZeroDivisionError` instead |
| App.ProcessLinesFault | app.py:131-141 | the listing loop raises exactly when a qualifying line's average price is 0, and only with `ZeroDivisionError` |
| App.ProcessLinesAlerts | app.py:131-141 | without a fault, the alerts are exactly the qualifying lines in order; with one, they are a proper prefix of them |
| App.ProcessLinesDispatches | app.py:131-141 | each alert of the listing loop is dispatched as its rendered text, in order: the window and the dispatch results are those of dispatching the texts one after another |
| App.OnListing | app.py:126-141 | a listing for an item missing from the board changes nothing; otherwise the alerts are the qualifying lines, each dispatched in order as its rendered text, and only the notification window changes |
| App.ProfitIsMarginTimesQuantity | app.py:135 | the profit is the per-unit margin times the quantity |
| App.NoHomeListingNoAlert | app.py:134-136 | with no home-world listing, a positive threshold is never reached at a non-negative price |
| App.NothingToResell | app.py:135 | reselling at price 0 gives a profit of at most 0 when the buying tax and the line are non-negative |
| App.ProfitFallsAsPriceRises | app.py:135 | for a positive quantity and a buying tax above -100%, a dearer listing is strictly less profitable |
| App.HandleEvent | app.py:142-151 | the three handled types reach their handler with their payload; any other type changes nothing; with the payload kind the constructors give each type, the only exception is the listing handler's `ZeroDivisionError` |
| App.RefreshRequestIsIgnored | app.py:142-150 | a refresh request is not among the arbitrager's handlers |
| App.Shutdown | app.py:163-164 | when the loop ends, a configured database receives the remaining buffer and the buffer empties |
| App.HandleEventKeepsRows | app.py:118-125 | a handled event passes exactly its sale rows to the buffer; an event that raises writes and buffers nothing |
| App.RunKeepsEveryRow | app.py:153-162 | over the arbitrager's loop, whether or not it ends in an exception, every sale row of the events handled before it ended is written or buffered once, in arrival order, and the buffer stays below 25 |
| App.EverySaleRowIsWritten | app.py:153-164 | with a configured database, the loop plus the final flush, which also runs after an exception, write every sale row of the handled events exactly once, in arrival order; all events' rows when nothing raises |
| App.HomeSaleRefreshesBoard | app.py:46-49 | a home-world sale's refresh, answered with the item's snapshot, puts that snapshot on the arbitrager's board |
| App.SubscriptionsAt | app.py:56-59 | the subscriptions for the i-th world, sales then listings, are at positions 2i and 2i+1 |
| App.ChannelRoundTrip | app.py:58-59 | a channel built from any event name without `{` and any world, negative ones included, reads back to that name and world |
| App.SubscriptionChannelsRoundTrip | app.py:58-59 | both channels a world is subscribed to read back to `sales/add` or `listings/add` and that world |
| App.SaleMessageRoundTrip | app.py:62-63 | a sale message becomes exactly the sale event it describes |
| App.ListingMessageRoundTrip | app.py:64-65 | a listing message becomes exactly the listing event it describes |
| ItemPriceScript.GetProperty | scripts/current_item_price.py:29-36 | an empty path raises `IndexError`; a one-key path is a plain lookup |
| ItemPriceScript.WalkIsReach | scripts/current_item_price.py:30-36 | through nested objects, a missing intermediate key gives `None`, and otherwise the result is the last key's lookup |
| ItemPriceScript.GetPropertyFollowsPath | scripts/current_item_price.py:29-36 | `None` when an intermediate key is missing, the value at the path when all keys exist, and `KeyError` of the last key when only that key is missing from the object reached |
| ItemPriceScript.GetPropertyOfScalar | scripts/current_item_price.py:31-36 | looking into a number, a boolean or `None` raises `TypeError` |
| ItemPriceScript.RequestBatches | scripts/current_item_price.py:67-75 | the item ids go out in order, in non-empty requests of at most 100 |
| ItemPriceScript.RateLimit | scripts/current_item_price.py:78-84 | the counter stays below 25 and resets to 0 exactly when the limit is reached, pausing then |
| ItemPriceScript.RateLimitIsIncrease | scripts/current_item_price.py:78-84 | the script's counter behaves as a `RateLimiter(25)` |

## Left out

- I/O is not modelled: HTTP requests, the websocket connection and its reconnect loop, threads and queues, `pickle` cache files, `tqdm`, `pandas`, printing and the spreadsheet export.
  - HTTP answers are a sequence of responses per fetch.
  - The stop signal is a function from the batch index.
  - The clock is a reading passed in.
  - The arbitrager's loop is a finite sequence of events, the ones taken from its queue before the stop signal.
- The Discord post's own answer is not modelled; a dispatch reports whether it posted.
- Helpers.DispatchNotification: an exception from `requests.post` (helpers.py:52) is not modelled. In Python it comes after the message was put in the window and before the limiter is advanced, and it ends the arbitrager (app.py:159-161). The model always completes the post.
- Message texts (`pretty_number`, item and world names from `arbitrage/naming.py`) are not part of this model. An alert's text is a parameter `render`. The ratio is kept in the alert; the percentage text built from it is not modelled.
- `initialize_database` and the SQL text are not modelled; a database write is the list of rows handed to `executemany`.
- The start-up check at app.py:36-38 is not modelled. It reads the environment and quits when a setting is missing. `Config` holds settings that passed it.
- Universalis.ParseMarketBoardCurrentData: a field of the wrong JSON kind (a BSON double for an integer field, say) raises `TypeError` in the model. Python's dataclasses would store it unchecked.
- Universalis.ParseSaleEvent: a field of the wrong JSON kind (a BSON double for an integer field, say) raises `TypeError` in the model. Python's dataclasses would store it unchecked.
- Universalis.ParseListingEvent: a field of the wrong JSON kind (a BSON double for an integer field, say) raises `TypeError` in the model. Python's dataclasses would store it unchecked.
- Universalis.ParseSaleEventLine: a field of the wrong JSON kind (a BSON double for an integer field, say) raises `TypeError` in the model. Python's dataclasses would store it unchecked.
- Universalis.ParseListingEventLine: a field of the wrong JSON kind (a BSON double for an integer field, say) raises `TypeError` in the model. Python's dataclasses would store it unchecked.
- Universalis.ParseListing: a field of the wrong JSON kind (a BSON double for an integer field, say) raises `TypeError` in the model. Python's dataclasses would store it unchecked.
- Universalis.ParseRecentHistory: a field of the wrong JSON kind (a BSON double for an integer field, say) raises `TypeError` in the model. Python's dataclasses would store it unchecked.
- `int(time.time())` is one clock reading per fetch in the model. Python reads the clock once per parsed snapshot.
- `get_marketable_items` performs a request. The model takes its answer as the `marketable` list and counts its call on the limiter.
- BulkFetch.RunBatches: the per-batch fetch is a parameter. The limiter is advanced by two calls per batch, as `get_market_board_current_data` does, outside that parameter.
- BulkFetch.FetchCurrentData: when a fetch raises, the limiter state is not tracked, because the exception ends the caller.
- App.HandleEvent: a payload of the wrong kind for its type is modelled as raising `TypeError`. No event constructor builds such an event. Python would instead raise `TypeError` for a board update whose payload is not a list (app.py:113); `AttributeError` on `.sales` for a sale (app.py:119); and for a listing, `AttributeError` on `.item_code` when the payload has none (app.py:126), a quiet return when its item is missing from the board, or `AttributeError` on `.listings` when its item is on the board (app.py:130).
- App.OnUpdateMarketBoard / App.OnSale / App.OnListing: the home world and every event's world are assumed to be in the seven-entry world table of arbitrage/naming.py:16-27. `get_world_name` indexes that table, so Python raises `KeyError` for any other id: in a non-empty board update before the first snapshot is stored (app.py:116), in a sale after its first row is inserted (app.py:123), and in a listing at its first line (app.py:133, and app.py:139 for the home world). The start-up check does not enforce this, and the model stores, inserts and dispatches as if every name lookup succeeded.
- App.AssessLine: the profit and the ratio are computed exactly over the reals; Python computes them in float64 (app.py:135-138), and its rounding at the threshold is not modelled. With both taxes 0.05 and a threshold of 100000, a home minimum of 105293 and one unit at 27 gil give exactly 100000 in the model, so it alerts, while the float64 result is 99999.99999999999 and Python does not. Likewise an average that is zero only after float64 rounding is not a `ZeroDivisionError` in the model.
- App.OnListing: it inherits the exact-real profit test of App.AssessLine, so at a float64 tie with the threshold the model can alert where Python does not.
- App.OnSale: it inherits Db.InsertRow's missing timestamp check, so a sale line with a timestamp outside years 1 to 9999 is buffered in the model, where Python raises `ValueError` with the earlier lines of that sale already buffered, and the arbitrager ends (app.py:159-161).
- Db.InsertRow: `datetime.fromtimestamp(unix_time, tz=timezone.utc)` (db.py:59) raises `ValueError` for a timestamp outside years 1 to 9999 (below -62135596800 or above 253402300799 seconds, a millisecond timestamp for instance). The model keeps the integer timestamp and never raises.
- BulkFetch.IsFresh: the cache age is the float difference of `time.time()` and the file's modification time (universalis.py:219-220); the model compares exact reals.
- Json.Lookup: on an object with a repeated key it returns the first binding, where `json.loads` and `bson.decode` keep the last. Decoded objects never repeat a key; the lemmas that depend on it require `DistinctKeys` or distinct item ids.
- A `KeyError` on `event.args["item_code"]` in the HTTP scraper is modelled as `TypeError`, because the payload is a typed datatype rather than a dict.

=== FILE: app.dfy ===
/**
 The three workers of the application, one step at a time: the arbitrager's event handlers
 (board updates, sales, listings), the HTTP scraper's translation of a refresh request into
 a board update, and the websocket client's subscriptions and message decoding. Queues,
 threads and printing are left out: a step takes the worker's state and returns the new state
 together with everything it sends out.
 */
module App {
  import opened Wrappers
  import opened Faults
  import opened Json
  import opened Helpers
  import opened Universalis
  import opened MinPrices
  import opened BulkFetch
  import opened Db
  import opened Events
  import Decimal

  /** The settings read from the environment at start-up. */
  datatype Config = Config(
    homeWorld: int,
    sellTax: real,
    buyTax: real,
    profitThreshold: int,
    dbParams: DbParameters,
    webhook: Option<string>)

  /** The arbitrager's state: the board, the database row buffer and the notification window. */
  datatype Arbitrager = Arbitrager(board: Board, buffer: seq<Row>, notifier: Notifier)

  /** An arbitrage opportunity found in a listing line; `ratio` is the home price over the average price. */
  datatype Alert = Alert(itemCode: int, worldId: int, line: ListingEventLine, homeMin: int, profit: real, ratio: real)

  /** What a step sends out: refresh requests to the scraper, alerts with their dispatch results, and database writes. */
  datatype Effects = Effects(refreshes: seq<Event>, alerts: seq<Alert>, dispatches: seq<Dispatch>, writes: seq<seq<Row>>)

  /** The state after a step, its effects, and the exception that ended it early, if any. */
  datatype Step = Step(state: Arbitrager, effects: Effects, fault: Option<Fault>)

  const NoEffects := Effects([], [], [], [])

  // ---------------------------------------------------------------------------------------
  // on_update_market_board

  /** Each snapshot replaces the board entry of its item; nothing else changes. */
  function OnUpdateMarketBoard(st: Arbitrager, items: seq<MarketBoardCurrentData>): (s: Step)
    ensures s.effects == NoEffects && s.fault == None
    ensures s.state.buffer == st.buffer && s.state.notifier == st.notifier
    ensures forall i :: 0 <= i < |items| && (forall j :: i < j < |items| ==> items[j].itemId != items[i].itemId) ==>
      items[i].itemId in s.state.board && s.state.board[items[i].itemId] == items[i]
    ensures forall k :: k in st.board && !Mentions(items, k) ==> k in s.state.board && s.state.board[k] == st.board[k]
    ensures forall k :: k in s.state.board <==> k in st.board || Mentions(items, k)
  {
    PutAllFacts(st.board, items);
    Step(st.(board := PutAll(st.board, items)), NoEffects, None)
  }

  // ---------------------------------------------------------------------------------------
  // on_sale

  /** The database rows of a sale event: one per sale line, in order. */
  function SaleRows(e: SaleEvent): (rows: seq<Row>)
    ensures |rows| == |e.sales|
    ensures forall i :: 0 <= i < |e.sales| ==>
      rows[i] == Row(UtcTime(e.sales[i].timestamp), e.worldId, e.itemCode, e.sales[i].pricePerUnit, e.sales[i].quantity)
  {
    seq(|e.sales|, i requires 0 <= i < |e.sales| =>
      Row(UtcTime(e.sales[i].timestamp), e.worldId, e.itemCode, e.sales[i].pricePerUnit, e.sales[i].quantity))
  }

  /** The refresh request for one item. */
  function RefreshRequest(itemCode: int): Event {
    MakeUpdateItem(ItemCodePayload(itemCode))
  }

  /**
   A sale buffers one row per sale line when the database is configured, and asks for a
   fresh snapshot of the item exactly when the sale happened on the home world.
   */
  function OnSale(c: Config, st: Arbitrager, e: SaleEvent): (s: Step)
    ensures s.fault == None && s.effects.alerts == [] && s.effects.dispatches == []
    ensures s.state.board == st.board && s.state.notifier == st.notifier
    ensures e.worldId == c.homeWorld ==> s.effects.refreshes == [RefreshRequest(e.itemCode)]
    ensures e.worldId != c.homeWorld ==> s.effects.refreshes == []
    ensures !IsValid(c.dbParams) ==> s.state.buffer == st.buffer && s.effects.writes == []
    ensures IsValid(c.dbParams) && |st.buffer| < BufferSize ==>
      && Flatten(s.effects.writes) + s.state.buffer == st.buffer + SaleRows(e)
      && |s.state.buffer| < BufferSize
  {
    var (buffer, writes) := if IsValid(c.dbParams) then InsertAll(st.buffer, SaleRows(e)) else (st.buffer, []);
    assert IsValid(c.dbParams) && |st.buffer| < BufferSize ==>
      Flatten(writes) + buffer == st.buffer + SaleRows(e) && |buffer| < BufferSize by {
      if IsValid(c.dbParams) && |st.buffer| < BufferSize {
        InsertAllKeepsEveryRow(st.buffer, SaleRows(e));
      }
    }
    var refreshes := if e.worldId == c.homeWorld then [RefreshRequest(e.itemCode)] else [];
    Step(st.(buffer := buffer), Effects(refreshes, [], [], writes), None)
  }

  // ---------------------------------------------------------------------------------------
  // on_listing

  /** The profit of buying a listing line and reselling it at the home world's lowest price, after both taxes. */
  function Profit(c: Config, homeMin: int, line: ListingEventLine): real {
    (1.0 - c.sellTax) * (homeMin as real) * (line.quantity as real)
      - (1.0 + c.buyTax) * (line.pricePerUnit as real) * (line.quantity as real)
  }

  /** The average price the alert compares against: the high-quality one for high-quality lines. */
  function Average(item: MarketBoardCurrentData, hq: bool): real {
    if hq then item.hqAveragePrice else item.nqAveragePrice
  }

  function HomeMin(c: Config, item: MarketBoardCurrentData, line: ListingEventLine): int {
    MinListingOnWorld(item, c.homeWorld, line.hq)
  }

  predicate Qualifies(c: Config, item: MarketBoardCurrentData, line: ListingEventLine) {
    Profit(c, HomeMin(c, item, line), line) >= c.profitThreshold as real
  }

  /**
   One listing line: an alert exactly when the profit reaches the threshold; the comparison
   with the average price then divides by it, so a zero average raises instead.
   */
  function AssessLine(c: Config, item: MarketBoardCurrentData, e: ListingEvent, line: ListingEventLine)
    : (r: Result<Option<Alert>, Fault>)
    ensures r.Success? && r.value.Some? <==> Qualifies(c, item, line) && Average(item, line.hq) != 0.0
    ensures r.Failure? <==> Qualifies(c, item, line) && Average(item, line.hq) == 0.0
    ensures r.Failure? ==> r.error == ZeroDivisionError
    ensures r.Success? && r.value.Some? ==>
      var a := r.value.value;
      && a.itemCode == e.itemCode && a.worldId == e.worldId && a.line == line
      && (!HasMatch(item.listings, c.homeWorld, line.hq) ==> a.homeMin == 0)
      && (HasMatch(item.listings, c.homeWorld, line.hq) ==> IsGroupMin(item.listings, c.homeWorld, line.hq, a.homeMin))
      && a.profit == Profit(c, a.homeMin, line)
      && a.ratio == a.homeMin as real / Average(item, line.hq)
  {
    var homeMin := HomeMin(c, item, line);
    var profit := Profit(c, homeMin, line);
    if profit >= c.profitThreshold as real then
      var average := Average(item, line.hq);
      if average == 0.0 then Failure(ZeroDivisionError)
      else Success(Some(Alert(e.itemCode, e.worldId, line, homeMin, profit, homeMin as real / average)))
    else
      Success(None)
  }

  /** The listing lines whose profit reaches the threshold, in order. */
  function QualifyingLines(c: Config, item: MarketBoardCurrentData, lines: seq<ListingEventLine>): seq<ListingEventLine> {
    if |lines| == 0 then []
    else (if Qualifies(c, item, lines[0]) then [lines[0]] else []) + QualifyingLines(c, item, lines[1..])
  }

  function AlertLines(alerts: seq<Alert>): (ls: seq<ListingEventLine>)
    ensures |ls| == |alerts| && forall i :: 0 <= i < |alerts| ==> ls[i] == alerts[i].line
  {
    seq(|alerts|, i requires 0 <= i < |alerts| => alerts[i].line)
  }

  /** The notification window after the lines processed so far, the alerts raised, their dispatch results, and a fault that stopped the loop. */
  datatype LinesOutcome = LinesOutcome(notifier: Notifier, alerts: seq<Alert>, dispatches: seq<Dispatch>, fault: Option<Fault>)

  /** A line that qualifies for an alert while its quality's average price is 0, so the comparison raises. */
  predicate Blocked(c: Config, item: MarketBoardCurrentData, line: ListingEventLine) {
    Qualifies(c, item, line) && Average(item, line.hq) == 0.0
  }

  /**
   The loop over the listing lines: each alert is rendered and dispatched through the
   notification window right away; a zero average stops the loop, keeping what was done.
   */
  function ProcessLines(c: Config, render: Alert -> string, item: MarketBoardCurrentData, e: ListingEvent,
                        lines: seq<ListingEventLine>, nt: Notifier): (o: LinesOutcome)
    ensures |o.dispatches| == |o.alerts|
    decreases |lines|
  {
    if |lines| == 0 then LinesOutcome(nt, [], [], None)
    else
      match AssessLine(c, item, e, lines[0])
      case Failure(f) =>
        LinesOutcome(nt, [], [], Some(f))
      case Success(None) =>
        ProcessLines(c, render, item, e, lines[1..], nt)
      case Success(Some(a)) =>
        var (nt', d) := DispatchNotification(nt, render(a), c.webhook);
        var rest := ProcessLines(c, render, item, e, lines[1..], nt');
        LinesOutcome(rest.notifier, [a] + rest.alerts, [d] + rest.dispatches, rest.fault)
  }

  /** The loop raises exactly when some line is blocked, and then only with a division by zero. */
  lemma {:induction false} ProcessLinesFault(c: Config, render: Alert -> string, item: MarketBoardCurrentData,
                                             e: ListingEvent, lines: seq<ListingEventLine>, nt: Notifier)
    ensures var o := ProcessLines(c, render, item, e, lines, nt);
      && (o.fault.None? <==> forall i :: 0 <= i < |lines| ==> !Blocked(c, item, lines[i]))
      && (o.fault.Some? ==> o.fault == Some(ZeroDivisionError))
    decreases |lines|
  {
    if |lines| > 0 {
      assert forall i :: 1 <= i < |lines| ==> lines[i] == lines[1..][i - 1];
      match AssessLine(c, item, e, lines[0])
      case Failure(f) =>
      case Success(None) =>
        ProcessLinesFault(c, render, item, e, lines[1..], nt);
      case Success(Some(a)) =>
        var (nt', d) := DispatchNotification(nt, render(a), c.webhook);
        ProcessLinesFault(c, render, item, e, lines[1..], nt');
    }
  }

  /**
   Without a fault the loop alerts on exactly the qualifying lines, in order; with one it has
   alerted on a proper prefix of them.
   */
  lemma {:induction false} ProcessLinesAlerts(c: Config, render: Alert -> string, item: MarketBoardCurrentData,
                                              e: ListingEvent, lines: seq<ListingEventLine>, nt: Notifier)
    ensures var o := ProcessLines(c, render, item, e, lines, nt);
      && (o.fault.None? ==> AlertLines(o.alerts) == QualifyingLines(c, item, lines))
      && (o.fault.Some? ==> AlertLines(o.alerts) < QualifyingLines(c, item, lines))
    decreases |lines|
  {
    if |lines| > 0 {
      var line := lines[0];
      var later := QualifyingLines(c, item, lines[1..]);
      match AssessLine(c, item, e, line)
      case Failure(f) =>
        assert QualifyingLines(c, item, lines) == [line] + later;
      case Success(None) =>
        assert QualifyingLines(c, item, lines) == later;
        ProcessLinesAlerts(c, render, item, e, lines[1..], nt);
      case Success(Some(a)) =>
        assert QualifyingLines(c, item, lines) == [line] + later;
        var (nt', d) := DispatchNotification(nt, render(a), c.webhook);
        ProcessLinesAlerts(c, render, item, e, lines[1..], nt');
        var rest := ProcessLines(c, render, item, e, lines[1..], nt');
        AlertLinesCons(a, rest.alerts, later, rest.fault.None?);
    }
  }

  /** The notification text of each alert, in order. */
  function Renders(render: Alert -> string, alerts: seq<Alert>): (msgs: seq<string>)
    ensures |msgs| == |alerts|
  {
    seq(|alerts|, i requires 0 <= i < |alerts| => render(alerts[i]))
  }

  /**
   Every alert of the loop is sent as its rendered text through the notification window, in
   order: the window and the dispatch results are those of dispatching the texts one by one.
   */
  lemma {:induction false} ProcessLinesDispatches(c: Config, render: Alert -> string, item: MarketBoardCurrentData,
                                                  e: ListingEvent, lines: seq<ListingEventLine>, nt: Notifier)
    ensures var o := ProcessLines(c, render, item, e, lines, nt);
      (o.notifier, o.dispatches) == DispatchAll(nt, Renders(render, o.alerts), c.webhook)
    decreases |lines|
  {
    if |lines| > 0 {
      match AssessLine(c, item, e, lines[0])
      case Failure(f) =>
      case Success(None) =>
        ProcessLinesDispatches(c, render, item, e, lines[1..], nt);
      case Success(Some(a)) =>
        var (nt', d) := DispatchNotification(nt, render(a), c.webhook);
        ProcessLinesDispatches(c, render, item, e, lines[1..], nt');
        var rest := ProcessLines(c, render, item, e, lines[1..], nt');
        RendersDispatchedCons(render, c.webhook, nt, a, rest.notifier, rest.alerts, rest.dispatches);
    }
  }

  /** Dispatching one more alert's text first extends the dispatches of the later alerts. */
  lemma RendersDispatchedCons(render: Alert -> string, webhook: Option<string>, nt: Notifier, a: Alert,
                              last: Notifier, alerts: seq<Alert>, dispatches: seq<Dispatch>)
    requires (last, dispatches) == DispatchAll(DispatchNotification(nt, render(a), webhook).0, Renders(render, alerts), webhook)
    ensures (last, [DispatchNotification(nt, render(a), webhook).1] + dispatches)
         == DispatchAll(nt, Renders(render, [a] + alerts), webhook)
  {
    assert Renders(render, [a] + alerts) == [render(a)] + Renders(render, alerts);
    DispatchAllCons(nt, render(a), Renders(render, alerts), webhook);
  }

  /** Putting an alert in front of the alerts puts its line in front of their lines, keeping equality or a proper prefix. */
  lemma AlertLinesCons(a: Alert, alerts: seq<Alert>, lines: seq<ListingEventLine>, complete: bool)
    requires complete ==> AlertLines(alerts) == lines
    requires !complete ==> AlertLines(alerts) < lines
    ensures complete ==> AlertLines([a] + alerts) == [a.line] + lines
    ensures !complete ==> AlertLines([a] + alerts) < [a.line] + lines
  {
    assert AlertLines([a] + alerts) == [a.line] + AlertLines(alerts);
  }

  /**
   A listing event for an item not on the board is skipped with no effect. Otherwise each of
   its lines is assessed against the item's snapshot; only the notification window changes.
   */
  function OnListing(c: Config, render: Alert -> string, st: Arbitrager, e: ListingEvent): (s: Step)
    ensures e.itemCode !in st.board ==> s == Step(st, NoEffects, None)
    ensures s.state.board == st.board && s.state.buffer == st.buffer
    ensures s.effects.refreshes == [] && s.effects.writes == []
    ensures |s.effects.dispatches| == |s.effects.alerts|
    ensures e.itemCode in st.board && s.fault.None? ==>
      AlertLines(s.effects.alerts) == QualifyingLines(c, st.board[e.itemCode], e.listings)
    ensures s.fault.Some? ==> s.fault == Some(ZeroDivisionError)
    ensures (s.state.notifier, s.effects.dispatches) == DispatchAll(st.notifier, Renders(render, s.effects.alerts), c.webhook)
  {
    if e.itemCode !in st.board then Step(st, NoEffects, None)
    else
      var o := ProcessLines(c, render, st.board[e.itemCode], e, e.listings, st.notifier);
      ProcessLinesFault(c, render, st.board[e.itemCode], e, e.listings, st.notifier);
      ProcessLinesAlerts(c, render, st.board[e.itemCode], e, e.listings, st.notifier);
      ProcessLinesDispatches(c, render, st.board[e.itemCode], e, e.listings, st.notifier);
      Step(st.(notifier := o.notifier), Effects([], o.alerts, o.dispatches, []), o.fault)
  }

  /** The profit is the per-unit margin times the quantity. */
  lemma ProfitIsMarginTimesQuantity(c: Config, homeMin: int, line: ListingEventLine)
    ensures Profit(c, homeMin, line)
         == ((1.0 - c.sellTax) * (homeMin as real) - (1.0 + c.buyTax) * (line.pricePerUnit as real)) * (line.quantity as real)
  {
  }

  /** With no listing on the home world the resale price is 0, so a positive threshold is never reached. */
  lemma NoHomeListingNoAlert(c: Config, item: MarketBoardCurrentData, e: ListingEvent, line: ListingEventLine)
    requires !HasMatch(item.listings, c.homeWorld, line.hq)
    requires c.profitThreshold > 0 && c.buyTax >= 0.0
    requires line.pricePerUnit >= 0 && line.quantity >= 0
    ensures AssessLine(c, item, e, line) == Success(None)
  {
    NothingToResell(c, line);
    assert HomeMin(c, item, line) == 0;
    assert !Qualifies(c, item, line);
  }

  /** Reselling at price 0 never makes a profit when the purchase costs something. */
  lemma NothingToResell(c: Config, line: ListingEventLine)
    requires c.buyTax >= 0.0
    requires line.pricePerUnit >= 0 && line.quantity >= 0
    ensures Profit(c, 0, line) <= 0.0
  {
    var p := (line.pricePerUnit as real) * (line.quantity as real);
    assert p >= 0.0;
    assert (1.0 + c.buyTax) * (line.pricePerUnit as real) * (line.quantity as real) == (1.0 + c.buyTax) * p;
  }

  /**
   For a positive quantity, and a buying tax above -100%, a cheaper listing is strictly more
   profitable: the profit falls as the unit price rises.
   */
  lemma ProfitFallsAsPriceRises(c: Config, homeMin: int, line: ListingEventLine, dearer: int)
    requires line.quantity > 0 && c.buyTax > -1.0
    requires line.pricePerUnit < dearer
    ensures Profit(c, homeMin, line.(pricePerUnit := dearer)) < Profit(c, homeMin, line)
  {
    var q := line.quantity as real;
    var rise := (dearer - line.pricePerUnit) as real;
    var m := (1.0 + c.buyTax) * rise;
    ProductOfPositives(1.0 + c.buyTax, rise);
    ProductOfPositives(m, q);
    assert (1.0 + c.buyTax) * (dearer as real) * q == (1.0 + c.buyTax) * (line.pricePerUnit as real) * q + m * q;
  }

  lemma ProductOfPositives(x: real, y: real)
    requires x > 0.0 && y > 0.0
    ensures x * y > 0.0
  {
  }

  // ---------------------------------------------------------------------------------------
  // handle_event

  /** The event types the arbitrager has a handler for. */
  predicate Handled(ev: Event) {
    Classify(ev.eventType) in {Some(UpdateMarketBoardTag), Some(ListingTag), Some(SaleTag)}
  }

  /** The payload kind each handled type is built with. */
  predicate WellFormed(ev: Event) {
    match Classify(ev.eventType)
    case Some(UpdateMarketBoardTag) => ev.args.SnapshotsPayload?
    case Some(ListingTag) => ev.args.ListingPayload?
    case Some(SaleTag) => ev.args.SalePayload?
    case _ => true
  }

  /**
   `handle_event`: the three handled types go to their handler; every other type, the
   scraper's refresh requests included, is ignored without any change. The event
   constructors always pair a type with its payload kind; a mismatched payload, which no
   constructor builds, is modelled as raising `TypeError`.
   */
  function HandleEvent(c: Config, render: Alert -> string, st: Arbitrager, ev: Event): (s: Step)
    ensures !Handled(ev) ==> s == Step(st, NoEffects, None)
    ensures !WellFormed(ev) ==> s.fault == Some(TypeError) && s.state == st
    ensures WellFormed(ev) && s.fault.Some? ==> s.fault == Some(ZeroDivisionError)
    ensures Classify(ev.eventType) == Some(UpdateMarketBoardTag) && ev.args.SnapshotsPayload? ==>
      s == OnUpdateMarketBoard(st, ev.args.items)
    ensures Classify(ev.eventType) == Some(SaleTag) && ev.args.SalePayload? ==> s == OnSale(c, st, ev.args.sale)
    ensures Classify(ev.eventType) == Some(ListingTag) && ev.args.ListingPayload? ==>
      s == OnListing(c, render, st, ev.args.listing)
  {
    match Classify(ev.eventType)
    case Some(UpdateMarketBoardTag) =>
      if ev.args.SnapshotsPayload? then OnUpdateMarketBoard(st, ev.args.items) else Step(st, NoEffects, Some(TypeError))
    case Some(ListingTag) =>
      if ev.args.ListingPayload? then OnListing(c, render, st, ev.args.listing) else Step(st, NoEffects, Some(TypeError))
    case Some(SaleTag) =>
      if ev.args.SalePayload? then OnSale(c, st, ev.args.sale) else Step(st, NoEffects, Some(TypeError))
    case _ =>
      Step(st, NoEffects, None)
  }

  /** A refresh request that reaches the arbitrager is not among its handlers and changes nothing. */
  lemma RefreshRequestIsIgnored(c: Config, render: Alert -> string, st: Arbitrager, itemCode: int)
    ensures HandleEvent(c, render, st, RefreshRequest(itemCode)) == Step(st, NoEffects, None)
  {
    TagNamesDistinct(UpdateItemTag, UpdateMarketBoardTag);
  }

  // ---------------------------------------------------------------------------------------
  // the arbitrager's loop and shutdown

  /** The effects of one step followed by those of the next. */
  function Then(a: Effects, b: Effects): Effects {
    Effects(a.refreshes + b.refreshes, a.alerts + b.alerts, a.dispatches + b.dispatches, a.writes + b.writes)
  }

  /**
   The arbitrager's loop over the events taken from its queue before the stop signal: each is
   handled in turn, and the first exception ends the loop.
   */
  function Run(c: Config, render: Alert -> string, st: Arbitrager, events: seq<Event>): Step
    decreases |events|
  {
    if |events| == 0 then Step(st, NoEffects, None)
    else
      var first := HandleEvent(c, render, st, events[0]);
      if first.fault.Some? then first
      else
        var rest := Run(c, render, first.state, events[1..]);
        Step(rest.state, Then(first.effects, rest.effects), rest.fault)
  }

  /** The database rows an event contributes: those of a sale event, none for any other. */
  function EventRows(ev: Event): seq<Row> {
    if Classify(ev.eventType) == Some(SaleTag) && ev.args.SalePayload? then SaleRows(ev.args.sale) else []
  }

  function EventsRows(events: seq<Event>): seq<Row> {
    if |events| == 0 then [] else EventRows(events[0]) + EventsRows(events[1..])
  }

  /** The rows of the first `m + 1` events are the first event's rows, then those of the next `m`. */
  lemma EventsRowsPrefix(events: seq<Event>, m: nat)
    requires m < |events|
    ensures EventsRows(events[..m + 1]) == EventRows(events[0]) + EventsRows(events[1..][..m])
  {
    var p := events[..m + 1];
    assert p[0] == events[0] && p[1..] == events[1..][..m];
  }

  /** When the loop has ended, the buffered rows are written if the database is configured. */
  function Shutdown(c: Config, st: Arbitrager): (r: BufferStep)
    ensures IsValid(c.dbParams) ==> r.buffer == [] && Written(r) == st.buffer
    ensures !IsValid(c.dbParams) ==> r == BufferStep(st.buffer, None)
  {
    if IsValid(c.dbParams) then FlushRows(st.buffer) else BufferStep(st.buffer, None)
  }

  /** A handled event that does not raise passes its sale rows, and only those, to the database buffer. */
  lemma HandleEventKeepsRows(c: Config, render: Alert -> string, st: Arbitrager, ev: Event)
    requires IsValid(c.dbParams) && |st.buffer| < BufferSize
    ensures var s := HandleEvent(c, render, st, ev);
      && (s.fault.None? ==>
            && Flatten(s.effects.writes) + s.state.buffer == st.buffer + EventRows(ev)
            && |s.state.buffer| < BufferSize)
      && (s.fault.Some? ==> s.effects.writes == [] && s.state.buffer == st.buffer)
  {
    var s := HandleEvent(c, render, st, ev);
    if Classify(ev.eventType) == Some(SaleTag) && ev.args.SalePayload? {
      assert s == OnSale(c, st, ev.args.sale);
    } else {
      assert s.effects.writes == [] && s.state.buffer == st.buffer;
      assert EventRows(ev) == [];
    }
  }

  /** The position of the event whose handling raised, or the number of events when none did. */
  function FaultAt(c: Config, render: Alert -> string, st: Arbitrager, events: seq<Event>): (n: nat)
    ensures n <= |events|
    decreases |events|
  {
    if |events| == 0 then 0
    else
      var first := HandleEvent(c, render, st, events[0]);
      if first.fault.Some? then 0 else 1 + FaultAt(c, render, first.state, events[1..])
  }

  /**
   Over the arbitrager's loop, every sale row of the events handled before the loop ended
   reaches the database or stays in the buffer, once and in arrival order, and the buffer
   stays below its flush size. The loop raises exactly when it stopped before the last event,
   and the event that raised adds no row.
   */
  lemma {:induction false} RunKeepsEveryRow(c: Config, render: Alert -> string, st: Arbitrager, events: seq<Event>)
    requires IsValid(c.dbParams) && |st.buffer| < BufferSize
    ensures var s := Run(c, render, st, events);
      var n := FaultAt(c, render, st, events);
      && (s.fault.None? <==> n == |events|)
      && Flatten(s.effects.writes) + s.state.buffer == st.buffer + EventsRows(events[..n])
      && |s.state.buffer| < BufferSize
    decreases |events|
  {
    if |events| > 0 {
      var first := HandleEvent(c, render, st, events[0]);
      HandleEventKeepsRows(c, render, st, events[0]);
      if first.fault.None? {
        var rest := Run(c, render, first.state, events[1..]);
        var m := FaultAt(c, render, first.state, events[1..]);
        RunKeepsEveryRow(c, render, first.state, events[1..]);
        EventsRowsPrefix(events, m);
        ChainRows(first.effects.writes, first.state.buffer, rest.effects.writes, rest.state.buffer,
                  st.buffer, EventRows(events[0]), EventsRows(events[1..][..m]));
      }
    }
  }

  /** Two steps that each pass their rows to the buffer together pass both rows, in order. */
  lemma ChainRows<T>(w1: seq<seq<T>>, b1: seq<T>, w2: seq<seq<T>>, b2: seq<T>, b0: seq<T>, r1: seq<T>, r2: seq<T>)
    requires Flatten(w1) + b1 == b0 + r1
    requires Flatten(w2) + b2 == b1 + r2
    ensures Flatten(w1 + w2) + b2 == b0 + (r1 + r2)
  {
    FlattenConcat(w1, w2);
    calc {
      Flatten(w1 + w2) + b2;
      Flatten(w1) + (Flatten(w2) + b2);
      Flatten(w1) + (b1 + r2);
      (Flatten(w1) + b1) + r2;
    }
  }

  /**
   With the database configured, the loop followed by the shutdown flush, which also runs
   after an exception, writes every sale row of the events handled before the loop ended
   exactly once, in arrival order, and leaves nothing buffered; a loop that raises nothing
   writes the rows of all its events.
   */
  lemma EverySaleRowIsWritten(c: Config, render: Alert -> string, events: seq<Event>, board: Board, nt: Notifier)
    requires IsValid(c.dbParams)
    ensures var s := Run(c, render, Arbitrager(board, [], nt), events);
      var last := Shutdown(c, s.state);
      var n := FaultAt(c, render, Arbitrager(board, [], nt), events);
      && Flatten(s.effects.writes) + Written(last) == EventsRows(events[..n])
      && last.buffer == []
      && (s.fault.None? ==> Flatten(s.effects.writes) + Written(last) == EventsRows(events))
  {
    RunKeepsEveryRow(c, render, Arbitrager(board, [], nt), events);
    assert events[..|events|] == events;
  }

  // ---------------------------------------------------------------------------------------
  // http_scraper

  /**
   One event taken by the HTTP scraper: a refresh request fetches the one item it names and
   becomes one board-update event carrying the snapshots; any other event is dropped.
   */
  function ScraperStep(rl: RateLimiter, ev: Event, responses: seq<Response>, now: int)
    : (r: Result<(RateLimiter, Option<Event>), Fault>)
    ensures ev.eventType != UpdateItemName ==> r == Success((rl, None))
    ensures ev.eventType == UpdateItemName && !ev.args.ItemCodePayload? ==> r == Failure(TypeError)
    ensures ev.eventType == UpdateItemName && ev.args.ItemCodePayload? ==>
      var fetched := FetchItems([ev.args.itemCode], responses, now);
      && (r.Success? <==> fetched.Success?)
      && (r.Success? ==> r.value == (AfterFetch(rl), Some(MakeUpdateMarketBoard(SnapshotsPayload(fetched.value)))))
  {
    if ev.eventType == UpdateItemName then
      match ev.args
      case ItemCodePayload(code) =>
        var (rl', items) :- FetchCurrentData(rl, [code], responses, now);
        Success((rl', Some(MakeUpdateMarketBoard(SnapshotsPayload(items)))))
      case _ => Failure(TypeError)
    else
      Success((rl, None))
  }

  /**
   The refresh cycle: a sale on the home world asks for a refresh; the scraper answers it with
   one good response carrying the item's snapshot; handing that event to the arbitrager puts
   the snapshot on the board.
   */
  lemma HomeSaleRefreshesBoard(c: Config, render: Alert -> string, st: Arbitrager, e: SaleEvent,
                               rl: RateLimiter, d: MarketBoardCurrentData)
    requires e.worldId == c.homeWorld && d.itemId == e.itemCode
    ensures var refreshes := OnSale(c, st, e).effects.refreshes;
      && |refreshes| == 1
      && var answer := ScraperStep(rl, refreshes[0], [Response(HttpStatusOk, Some(MarketBoardCurrentDataJson(d)))], d.lastUpdate);
         && answer.Success? && answer.value.1.Some?
         && var after := HandleEvent(c, render, st, answer.value.1.value).state;
            e.itemCode in after.board && after.board[e.itemCode] == d
  {
    var responses := [Response(HttpStatusOk, Some(MarketBoardCurrentDataJson(d)))];
    SingleResponseRoundTrip(d);
    FirstOkIsKept(responses);
    assert FetchItems([e.itemCode], responses, d.lastUpdate) == Success([d]);
  }

  // ---------------------------------------------------------------------------------------
  // websocket_client

  /** The channel of one event on one world: `<name>{world=<id>}`. */
  function Channel(name: string, worldId: int): string {
    name + ("{world=" + Decimal.IntToString(worldId) + "}")
  }

  function SalesChannel(worldId: int): string {
    Channel("sales/add", worldId)
  }

  function ListingsChannel(worldId: int): string {
    Channel("listings/add", worldId)
  }

  function SubscribeMessage(channel: string): Json {
    JObj([("event", JStr("subscribe")), ("channel", JStr(channel))])
  }

  /** Each element expanded into two, `f` of it first and then `g` of it, in order. */
  function Pairs<T, U>(xs: seq<T>, f: T -> U, g: T -> U): (ys: seq<U>)
    ensures |ys| == 2 * |xs|
  {
    if |xs| == 0 then [] else [f(xs[0]), g(xs[0])] + Pairs(xs[1..], f, g)
  }

  lemma {:induction false} PairsAt<T, U>(xs: seq<T>, f: T -> U, g: T -> U, i: nat)
    requires i < |xs|
    ensures Pairs(xs, f, g)[2 * i] == f(xs[i]) && Pairs(xs, f, g)[2 * i + 1] == g(xs[i])
  {
    if i > 0 {
      PairsAt(xs[1..], f, g, i - 1);
    }
  }

  /** `on_open`: two subscriptions per world, sales first, in the order of the world list. */
  function Subscriptions(worlds: seq<int>): (msgs: seq<Json>)
    ensures |msgs| == 2 * |worlds|
  {
    Pairs(worlds, w => SubscribeMessage(SalesChannel(w)), w => SubscribeMessage(ListingsChannel(w)))
  }

  /** The messages for the `i`-th world sit at positions `2i` and `2i+1`. */
  lemma SubscriptionsAt(worlds: seq<int>, i: nat)
    requires i < |worlds|
    ensures Subscriptions(worlds)[2 * i] == SubscribeMessage(SalesChannel(worlds[i]))
    ensures Subscriptions(worlds)[2 * i + 1] == SubscribeMessage(ListingsChannel(worlds[i]))
  {
    PairsAt(worlds, w => SubscribeMessage(SalesChannel(w)), w => SubscribeMessage(ListingsChannel(w)), i);
  }

  /** The position of the first `ch` in `s`, or `|s|` when there is none. */
  function FirstIndex(s: string, ch: char): (k: nat)
    ensures k <= |s|
    ensures k < |s| ==> s[k] == ch
    ensures forall j :: 0 <= j < k ==> s[j] != ch
  {
    if |s| == 0 || s[0] == ch then 0 else 1 + FirstIndex(s[1..], ch)
  }

  /** The event name and world of a channel string `<name>{world=<id>}`, if it has that shape. */
  function ParseChannel(channel: string): Option<(string, int)> {
    var open := "{world=";
    var k := FirstIndex(channel, '{');
    if k + |open| < |channel| && channel[k..k + |open|] == open && channel[|channel| - 1] == '}' then
      match Decimal.ParseInt(channel[k + |open|..|channel| - 1])
      case Some(w) => Some((channel[..k], w))
      case None => None
    else None
  }

  /** Past a prefix free of `ch`, the first `ch` is the one that starts the suffix. */
  lemma {:induction false} FirstIndexAfter(a: string, b: string, ch: char)
    requires forall j :: 0 <= j < |a| ==> a[j] != ch
    requires |b| > 0 && b[0] == ch
    ensures FirstIndex(a + b, ch) == |a|
    decreases |a|
  {
    if |a| > 0 {
      assert (a + b)[1..] == a[1..] + b;
      FirstIndexAfter(a[1..], b, ch);
    }
  }

  /** The pieces of `a + (x + y + z)` are found again at their offsets. */
  lemma Framed<T>(a: seq<T>, x: seq<T>, y: seq<T>, z: seq<T>)
    ensures var s := a + (x + y + z);
      && |s| == |a| + |x| + |y| + |z|
      && s[..|a|] == a
      && s[|a|..|a| + |x|] == x
      && s[|a| + |x|..|s| - |z|] == y
      && s[|s| - |z|..] == z
  {
    var s := a + (x + y + z);
    assert s[..|a|] == a;
    assert s[|a|..|a| + |x|] == x;
    assert s[|a| + |x|..|s| - |z|] == y;
    assert s[|s| - |z|..] == z;
  }

  /** A channel whose first `{` opens `{world=`, whose last character is `}` and whose middle parses, is accepted. */
  lemma ParseChannelAccepts(channel: string, k: nat, worldId: int)
    requires FirstIndex(channel, '{') == k && k + 7 < |channel|
    requires channel[k..k + 7] == "{world=" && channel[|channel| - 1] == '}'
    requires Decimal.ParseInt(channel[k + 7..|channel| - 1]) == Some(worldId)
    ensures ParseChannel(channel) == Some((channel[..k], worldId))
  {
  }

  /** A name without `{`, then `{world=`, a number's text and `}`, parses back to the name and the number. */
  lemma ParseFramedChannel(name: string, digits: string, worldId: int)
    requires forall j :: 0 <= j < |name| ==> name[j] != '{'
    requires Decimal.ParseInt(digits) == Some(worldId)
    ensures ParseChannel(name + ("{world=" + digits + "}")) == Some((name, worldId))
  {
    var open := "{world=";
    var channel := name + (open + digits + "}");
    FirstIndexAfter(name, open + digits + "}", '{');
    Framed(name, open, digits, "}");
    assert channel[|channel| - 1] == channel[|channel| - 1..][0];
    ParseChannelAccepts(channel, |name|, worldId);
  }

  /** A channel built from a name without `{` and a world gives back that name and world. */
  lemma ChannelRoundTrip(name: string, worldId: int)
    requires forall j :: 0 <= j < |name| ==> name[j] != '{'
    ensures ParseChannel(Channel(name, worldId)) == Some((name, worldId))
  {
    Decimal.IntRoundTrip(worldId);
    ParseFramedChannel(name, Decimal.IntToString(worldId), worldId);
  }

  /** Both subscription channels of a world name their event and that world. */
  lemma SubscriptionChannelsRoundTrip(worldId: int)
    ensures ParseChannel(SalesChannel(worldId)) == Some(("sales/add", worldId))
    ensures ParseChannel(ListingsChannel(worldId)) == Some(("listings/add", worldId))
  {
    var sales := "sales/add";
    assert forall j :: 0 <= j < |sales| ==> sales[j] != '{' by {
      forall j | 0 <= j < |sales| ensures sales[j] != '{' {
        assert sales[j] in "sales/add";
      }
    }
    ChannelRoundTrip(sales, worldId);
    var listings := "listings/add";
    assert forall j :: 0 <= j < |listings| ==> listings[j] != '{' by {
      forall j | 0 <= j < |listings| ensures listings[j] != '{' {
        assert listings[j] in "listings/add";
      }
    }
    ChannelRoundTrip(listings, worldId);
  }

  /**
   `on_message`: a decoded message whose `event` is `sales/add` or `listings/add` becomes a
   sale or listing event; any other event name is ignored. A message without `event`, or
   one that does not parse, raises.
   */
  function OnMessage(msg: Json): (r: Result<Option<Event>, Fault>)
    ensures msg.JObj? && Lookup(msg.fields, "event").None? ==> r == Failure(KeyError("event"))
    ensures r.Success? && r.value.Some? ==>
      || (Get(msg, "event") == Success(JStr("sales/add")) && ParseSaleEvent(msg).Success?
          && r.value.value == MakeSale(SalePayload(ParseSaleEvent(msg).value)))
      || (Get(msg, "event") == Success(JStr("listings/add")) && ParseListingEvent(msg).Success?
          && r.value.value == MakeListing(ListingPayload(ParseListingEvent(msg).value)))
    ensures Get(msg, "event").Success? && Get(msg, "event").value !in {JStr("sales/add"), JStr("listings/add")} ==>
      r == Success(None)
  {
    var kind :- Get(msg, "event");
    if kind == JStr("sales/add") then
      var e :- ParseSaleEvent(msg);
      Success(Some(MakeSale(SalePayload(e))))
    else if kind == JStr("listings/add") then
      var e :- ParseListingEvent(msg);
      Success(Some(MakeListing(ListingPayload(e))))
    else
      Success(None)
  }

  /** A sale message as the server sends it becomes exactly that sale event. */
  lemma SaleMessageRoundTrip(e: SaleEvent)
    ensures OnMessage(SaleEventJson(e)) == Success(Some(MakeSale(SalePayload(e))))
  {
    LookupAt(SaleEventJson(e).fields, 0, "event");
    SaleEventRoundTrip(e);
  }

  /** A listing message as the server sends it becomes exactly that listing event. */
  lemma ListingMessageRoundTrip(e: ListingEvent)
    ensures OnMessage(ListingEventJson(e)) == Success(Some(MakeListing(ListingPayload(e))))
  {
    LookupAt(ListingEventJson(e).fields, 0, "event");
    ListingEventRoundTrip(e);
  }
}

=== FILE: bulk_fetch.dfy ===
/**
 `get_market_board_current_data` and `get_market_board`: fetching snapshots for up to 100
 items at a time with a doubling retry delay, turning the three response shapes into a list
 of snapshots, and rebuilding the whole board batch by batch unless a fresh cache exists or
 the stop signal is raised. The HTTP server is an oracle: a request is answered by the next
 element of a given sequence of responses, and running out of responses stands for the
 connection error `requests` raises.
 */
module BulkFetch {
  import opened Wrappers
  import opened Faults
  import opened Json
  import opened Helpers
  import opened Universalis
  import Decimal

  const HttpStatusOk := 200
  /** Retries after the first request. */
  const MaxRetries := 7
  /** Seconds slept before the first retry; each later retry waits twice as long. */
  const FirstRetryDelay := 2
  const MaxIdsPerRequest := 100
  /** The module-wide limiter in front of the market board API allows 25 calls per second. */
  const ApiRequestsPerSecond := 25
  /** The rebuild asks for this many items per request. */
  const BatchSize := 100

  /** An HTTP answer: its status, and its body decoded as JSON (`None` when it is not JSON). */
  datatype Response = Response(status: int, body: Option<Json>)

  /** What the retry loop ends with: the response it keeps, the sleeps before each retry, and the number of requests sent. */
  datatype Attempts = Attempts(last: Response, delays: seq<int>, requests: nat)

  function Pow2(n: nat): (p: nat)
    ensures p >= 1
  {
    if n == 0 then 1 else 2 * Pow2(n - 1)
  }

  function Sum(xs: seq<int>): int {
    if |xs| == 0 then 0 else Sum(xs[..|xs| - 1]) + xs[|xs| - 1]
  }

  // ---------------------------------------------------------------------------------------
  // The retry loop

  /** The loop from the request numbered `i` on, with `attemptsLeft` retries left and `delay` seconds to sleep before the next one. */
  function RetryFrom(responses: seq<Response>, i: nat, attemptsLeft: nat, delay: int): (r: Result<Attempts, Fault>)
    requires i < |responses|
    ensures r.Failure? ==> r.error == ConnectionError
    decreases attemptsLeft
  {
    if responses[i].status == HttpStatusOk || attemptsLeft == 0 then
      Success(Attempts(responses[i], [], i + 1))
    else if i + 1 == |responses| then
      Failure(ConnectionError)
    else
      var rest :- RetryFrom(responses, i + 1, attemptsLeft - 1, 2 * delay);
      Success(Attempts(rest.last, [delay] + rest.delays, rest.requests))
  }

  /** `RetryFrom` fails only when every remaining response failed and there were too few of them to use up the retries. */
  lemma {:induction false} RetryFromFailure(responses: seq<Response>, i: nat, attemptsLeft: nat, delay: int)
    requires i < |responses|
    requires i + attemptsLeft == MaxRetries
    ensures RetryFrom(responses, i, attemptsLeft, delay).Failure? ==>
      && |responses| <= MaxRetries
      && forall j :: i <= j < |responses| ==> responses[j].status != HttpStatusOk
    decreases attemptsLeft
  {
    if responses[i].status != HttpStatusOk && attemptsLeft > 0 && i + 1 < |responses| {
      RetryFromFailure(responses, i + 1, attemptsLeft - 1, 2 * delay);
    }
  }

  /**
   The response `RetryFrom` keeps is number `k`: every response before it failed, and it
   succeeded or the retries ran out there; one sleep precedes each retry.
   */
  lemma {:induction false} RetryFromKept(responses: seq<Response>, i: nat, attemptsLeft: nat, delay: int)
    requires i < |responses|
    requires i + attemptsLeft == MaxRetries
    ensures var r := RetryFrom(responses, i, attemptsLeft, delay);
      r.Success? ==>
        var k := r.value.requests - 1;
        && i <= k < |responses|
        && k <= MaxRetries
        && r.value.last == responses[k]
        && (forall j :: i <= j < k ==> responses[j].status != HttpStatusOk)
        && (responses[k].status == HttpStatusOk || k == MaxRetries)
        && |r.value.delays| == k - i
    decreases attemptsLeft
  {
    if responses[i].status != HttpStatusOk && attemptsLeft > 0 && i + 1 < |responses| {
      RetryFromKept(responses, i + 1, attemptsLeft - 1, 2 * delay);
    }
  }

  /** The `j`-th sleep of `RetryFrom` lasts `2^(i+j+1)` seconds: it starts at `delay` and doubles. */
  lemma {:induction false} RetryFromDelays(responses: seq<Response>, i: nat, attemptsLeft: nat, delay: int)
    requires i < |responses|
    requires delay == Pow2(i + 1)
    ensures var r := RetryFrom(responses, i, attemptsLeft, delay);
      r.Success? ==> forall j :: 0 <= j < |r.value.delays| ==> r.value.delays[j] == Pow2(i + j + 1)
    decreases attemptsLeft
  {
    if responses[i].status != HttpStatusOk && attemptsLeft > 0 && i + 1 < |responses| {
      RetryFromDelays(responses, i + 1, attemptsLeft - 1, 2 * delay);
      var rest := RetryFrom(responses, i + 1, attemptsLeft - 1, 2 * delay);
      if rest.Success? {
        var d := [delay] + rest.value.delays;
        assert forall j :: 1 <= j < |d| ==> d[j] == rest.value.delays[j - 1];
      }
    }
  }

  /**
   The whole loop: the first request, then up to seven retries while the status is not 200.
   It fails exactly when the server stops answering before a 200 and before the eighth
   request; otherwise it keeps the first 200, or the eighth response whatever its status.
   */
  function Retry(responses: seq<Response>): (r: Result<Attempts, Fault>)
    ensures r.Failure? <==>
      |responses| <= MaxRetries && forall j :: 0 <= j < |responses| ==> responses[j].status != HttpStatusOk
    ensures r.Failure? ==> r.error == ConnectionError
    ensures r.Success? ==>
      var k := |r.value.delays|;
      && k <= MaxRetries
      && r.value.requests == k + 1
      && k < |responses|
      && r.value.last == responses[k]
      && (forall j :: 0 <= j < k ==> responses[j].status != HttpStatusOk)
      && (responses[k].status == HttpStatusOk || k == MaxRetries)
      && (forall j :: 0 <= j < k ==> r.value.delays[j] == Pow2(j + 1))
  {
    if |responses| == 0 then Failure(ConnectionError)
    else
      RetryFromFailure(responses, 0, MaxRetries, FirstRetryDelay);
      RetryFromKept(responses, 0, MaxRetries, FirstRetryDelay);
      RetryFromDelays(responses, 0, MaxRetries, FirstRetryDelay);
      RetryFrom(responses, 0, MaxRetries, FirstRetryDelay)
  }

  /** The sleeps before the retries are 2, 4, 8, ... seconds: each twice the one before. */
  lemma RetryDelaysDouble(responses: seq<Response>)
    requires Retry(responses).Success?
    ensures var d := Retry(responses).value.delays;
      && (|d| > 0 ==> d[0] == FirstRetryDelay)
      && forall j :: 0 <= j < |d| - 1 ==> d[j + 1] == 2 * d[j]
  {
  }

  lemma {:induction false} SumOfPowers(d: seq<int>)
    requires forall j :: 0 <= j < |d| ==> d[j] == Pow2(j + 1)
    ensures Sum(d) == Pow2(|d| + 1) - 2
  {
    if |d| > 0 {
      SumOfPowers(d[..|d| - 1]);
    }
  }

  /** Waiting never exceeds 2 + 4 + ... + 128 = 254 seconds, and is that long only after seven failures. */
  lemma RetryWaitIsBounded(responses: seq<Response>)
    requires Retry(responses).Success?
    ensures var a := Retry(responses).value;
      && Sum(a.delays) == Pow2(|a.delays| + 1) - 2
      && Sum(a.delays) <= 254
  {
    var d := Retry(responses).value.delays;
    SumOfPowers(d);
    assert Pow2(|d| + 1) <= 256 by {
      PowMonotone(|d| + 1, 8);
    }
  }

  lemma {:induction false} PowMonotone(a: nat, b: nat)
    requires a <= b
    ensures Pow2(a) <= Pow2(b)
    decreases b
  {
    if a < b {
      PowMonotone(a, b - 1);
    }
  }

  /** A first answer of 200 is kept without any retry. */
  lemma FirstOkIsKept(responses: seq<Response>)
    requires |responses| > 0 && responses[0].status == HttpStatusOk
    ensures Retry(responses) == Success(Attempts(responses[0], [], 1))
  {
  }

  // ---------------------------------------------------------------------------------------
  // Normalising the response

  /** `parse_market_board_current_data` with the clock reading fixed. */
  function SnapshotParser(now: int): Json -> Result<MarketBoardCurrentData, Fault> {
    (o: Json) => ParseMarketBoardCurrentData(o, now)
  }

  /**
   The three shapes of a response: an object with `items` gives one snapshot per entry of
   that map, in order; otherwise an object with `hasData` is itself one snapshot; anything
   else gives no snapshots. `now` is the clock reading the snapshots are stamped with.
   */
  function Normalise(obj: Json, now: int): Result<seq<MarketBoardCurrentData>, Fault>
  {
    var hasItems :- Contains(obj, "items");
    if hasItems then
      var items :- Get(obj, "items");
      var entries :- Values(items);
      ParseAll(entries, SnapshotParser(now))
    else
      var hasData :- Contains(obj, "hasData");
      if hasData then
        var d :- ParseMarketBoardCurrentData(obj, now);
        Success([d])
      else
        Success([])
  }

  /** Each of the three shapes, and the values that are not objects at all. */
  lemma NormaliseShapes(obj: Json, now: int)
    ensures obj.JObj? && HasKey(obj.fields, "items") ==>
      var items := Get(obj, "items");
      && (items.Success? && !items.value.JObj? ==> Normalise(obj, now) == Failure(AttributeError))
      && (items.Success? && items.value.JObj? ==>
            var entries := items.value.fields;
            && (Normalise(obj, now).Success? <==> forall i :: 0 <= i < |entries| ==> ParseMarketBoardCurrentData(entries[i].1, now).Success?)
            && (Normalise(obj, now).Success? ==>
                  && |Normalise(obj, now).value| == |entries|
                  && forall i :: 0 <= i < |entries| ==> ParseMarketBoardCurrentData(entries[i].1, now) == Success(Normalise(obj, now).value[i])))
    ensures obj.JObj? && !HasKey(obj.fields, "items") && HasKey(obj.fields, "hasData") ==>
      && (Normalise(obj, now).Success? <==> ParseMarketBoardCurrentData(obj, now).Success?)
      && (Normalise(obj, now).Success? ==> Normalise(obj, now).value == [ParseMarketBoardCurrentData(obj, now).value])
    ensures obj.JObj? && !HasKey(obj.fields, "items") && !HasKey(obj.fields, "hasData") ==> Normalise(obj, now) == Success([])
    ensures !obj.JObj? && !obj.JArr? && !obj.JStr? ==> Normalise(obj, now) == Failure(TypeError)
  {
  }

  /** The response for several items: the snapshots keyed by their item id under `items`. */
  function ItemsResponseJson(ds: seq<MarketBoardCurrentData>): Json {
    JObj([("items", JObj(seq(|ds|, i requires 0 <= i < |ds| => (Decimal.IntToString(ds[i].itemId), MarketBoardCurrentDataJson(ds[i])))))])
  }

  lemma EachSnapshotRoundTrips(ds: seq<MarketBoardCurrentData>, now: int)
    requires forall i :: 0 <= i < |ds| ==> ds[i].lastUpdate == now
    ensures forall i :: 0 <= i < |ds| ==> ParseMarketBoardCurrentData(MarketBoardCurrentDataJson(ds[i]), now) == Success(ds[i])
  {
    forall i | 0 <= i < |ds| ensures ParseMarketBoardCurrentData(MarketBoardCurrentDataJson(ds[i]), now) == Success(ds[i]) {
      MarketBoardCurrentDataRoundTrip(ds[i]);
    }
  }

  /** Snapshot objects stamped with the same clock reading parse back to their snapshots. */
  lemma SnapshotsRoundTrip(ds: seq<MarketBoardCurrentData>, xs: seq<Json>, now: int)
    requires forall i :: 0 <= i < |ds| ==> ds[i].lastUpdate == now
    requires |xs| == |ds| && forall i :: 0 <= i < |ds| ==> xs[i] == MarketBoardCurrentDataJson(ds[i])
    ensures ParseAll(xs, SnapshotParser(now)) == Success(ds)
  {
    EachSnapshotRoundTrips(ds, now);
    var r := ParseAll(xs, SnapshotParser(now));
    assert r.Success?;
    assert r.value == ds;
  }

  /**
   A multi-item response for distinct items is a well-formed decoded object (its `items`
   object never repeats a key), and it normalises back to its snapshots, in order.
   */
  lemma ItemsResponseRoundTrip(ds: seq<MarketBoardCurrentData>, now: int)
    requires forall i :: 0 <= i < |ds| ==> ds[i].lastUpdate == now
    requires forall i, j :: 0 <= i < j < |ds| ==> ds[i].itemId != ds[j].itemId
    ensures DistinctKeys(ItemsResponseJson(ds).fields[0].1.fields)
    ensures Normalise(ItemsResponseJson(ds), now) == Success(ds)
  {
    var keyed := ItemsResponseJson(ds).fields[0].1.fields;
    forall i, j | 0 <= i < j < |ds| ensures keyed[i].0 != keyed[j].0 {
      Decimal.IntRoundTrip(ds[i].itemId);
      Decimal.IntRoundTrip(ds[j].itemId);
    }
    var obj := ItemsResponseJson(ds);
    LookupAt(obj.fields, 0, "items");
    assert Contains(obj, "items") == Success(true);
    var entries := Values(obj.fields[0].1).value;
    SnapshotsRoundTrip(ds, entries, now);
  }

  /** A single-item response (`hasData` and no `items`) normalises to exactly that snapshot. */
  lemma SingleResponseRoundTrip(d: MarketBoardCurrentData)
    ensures Normalise(MarketBoardCurrentDataJson(d), d.lastUpdate) == Success([d])
  {
    var obj := MarketBoardCurrentDataJson(d);
    assert obj.fields[1].0 == "hasData";
    assert !HasKey(obj.fields, "items");
    MarketBoardCurrentDataRoundTrip(d);
  }

  // ---------------------------------------------------------------------------------------
  // get_market_board_current_data

  /** `response.json()`: a body that is not JSON raises. */
  function Decode(response: Response): (r: Result<Json, Fault>)
    ensures response.body.Some? <==> r.Success?
    ensures r.Success? ==> r.value == response.body.value
    ensures r.Failure? ==> r.error == JsonDecodeError
  {
    match response.body
    case Some(obj) => Success(obj)
    case None => Failure(JsonDecodeError)
  }

  /**
   The snapshots one call returns: more than 100 ids fail the assertion before any request;
   otherwise the kept response must decode to a non-empty value, which is then normalised.
   */
  function FetchItems(ids: seq<int>, responses: seq<Response>, now: int): Result<seq<MarketBoardCurrentData>, Fault>
  {
    if |ids| > MaxIdsPerRequest then Failure(AssertionError)
    else
      var attempts :- Retry(responses);
      var obj :- Decode(attempts.last);
      if !Truthy(obj) then Failure(AssertionError)
      else Normalise(obj, now)
  }

  /**
   The ways a call fails: too many ids (before any request), no usable answer, a body that
   is not JSON, or a body that is empty or otherwise false.
   */
  lemma FetchItemsFailures(ids: seq<int>, responses: seq<Response>, now: int)
    ensures |ids| > MaxIdsPerRequest ==> FetchItems(ids, responses, now) == Failure(AssertionError)
    ensures |ids| <= MaxIdsPerRequest && Retry(responses).Failure? ==> FetchItems(ids, responses, now) == Failure(ConnectionError)
    ensures (&& |ids| <= MaxIdsPerRequest && Retry(responses).Success?
             && Retry(responses).value.last.body.None?) ==> FetchItems(ids, responses, now) == Failure(JsonDecodeError)
    ensures (&& |ids| <= MaxIdsPerRequest && Retry(responses).Success? && Retry(responses).value.last.body.Some?
             && !Truthy(Retry(responses).value.last.body.value)) ==> FetchItems(ids, responses, now) == Failure(AssertionError)
  {
  }

  /**
   `get_market_board_current_data`: the snapshots, and the limiter after its two calls (one
   before the first request, one after decoding the kept response).
   */
  function FetchCurrentData(rl: RateLimiter, ids: seq<int>, responses: seq<Response>, now: int)
    : (r: Result<(RateLimiter, seq<MarketBoardCurrentData>), Fault>)
    ensures r.Success? <==> FetchItems(ids, responses, now).Success?
    ensures r.Success? ==> r.value.1 == FetchItems(ids, responses, now).value
    ensures r.Success? ==> r.value.0 == AfterFetch(rl)
    ensures r.Success? ==> r.value.0 == IncreaseTimes(rl, 2).0
    ensures r.Failure? ==> r.error == FetchItems(ids, responses, now).error
  {
    var items :- FetchItems(ids, responses, now);
    assert IncreaseTimes(rl, 1).0 == Increase(rl).limiter;
    Success((AfterFetch(rl), items))
  }

  /** The limiter after a successful call: two calls of `increase`. */
  function AfterFetch(rl: RateLimiter): RateLimiter {
    Increase(Increase(rl).limiter).limiter
  }

  /** One good answer for a batch of ids gives exactly the snapshots in it, one per item. */
  lemma FetchOfGoodResponse(ids: seq<int>, ds: seq<MarketBoardCurrentData>, now: int)
    requires |ids| <= MaxIdsPerRequest
    requires forall i :: 0 <= i < |ds| ==> ds[i].lastUpdate == now
    requires forall i, j :: 0 <= i < j < |ds| ==> ds[i].itemId != ds[j].itemId
    ensures FetchItems(ids, [Response(HttpStatusOk, Some(ItemsResponseJson(ds)))], now) == Success(ds)
  {
    ItemsResponseRoundTrip(ds, now);
  }

  // ---------------------------------------------------------------------------------------
  // The board

  predicate Mentions(items: seq<MarketBoardCurrentData>, itemId: int) {
    exists i :: 0 <= i < |items| && items[i].itemId == itemId
  }

  /**
   `board[item.item_id] = item` for each snapshot in turn: a snapshot's id maps to the last
   snapshot with that id, and every other entry of the board is left as it was.
   */
  function PutAll(board: Board, items: seq<MarketBoardCurrentData>): Board
    decreases |items|
  {
    if |items| == 0 then board
    else PutAll(board, items[..|items| - 1])[items[|items| - 1].itemId := items[|items| - 1]]
  }

  /** The last snapshot's id is mentioned, and any other id is mentioned exactly when the front mentions it. */
  lemma MentionsSnoc(items: seq<MarketBoardCurrentData>)
    requires |items| > 0
    ensures forall k :: Mentions(items, k) <==> Mentions(items[..|items| - 1], k) || k == items[|items| - 1].itemId
  {
    var front := items[..|items| - 1];
    assert forall i :: 0 <= i < |front| ==> front[i] == items[i];
    forall k | Mentions(items, k) && k != items[|items| - 1].itemId ensures Mentions(front, k) {
      var i :| 0 <= i < |items| && items[i].itemId == k;
      assert front[i].itemId == k;
    }
  }

  /** The keys after `PutAll` are the old ones and the snapshots' ids; entries no snapshot mentions are unchanged. */
  lemma {:induction false} PutAllKeys(board: Board, items: seq<MarketBoardCurrentData>)
    ensures var b := PutAll(board, items);
      && (forall k :: k in b <==> k in board || Mentions(items, k))
      && (forall k :: k in board && !Mentions(items, k) ==> k in b && b[k] == board[k])
    decreases |items|
  {
    if |items| > 0 {
      PutAllKeys(board, items[..|items| - 1]);
      MentionsSnoc(items);
    }
  }

  /** After `PutAll`, a snapshot's id maps to the last snapshot with that id. */
  lemma {:induction false} PutAllLastWins(board: Board, items: seq<MarketBoardCurrentData>)
    ensures var b := PutAll(board, items);
      forall i :: 0 <= i < |items| && (forall j :: i < j < |items| ==> items[j].itemId != items[i].itemId) ==>
        items[i].itemId in b && b[items[i].itemId] == items[i]
    decreases |items|
  {
    if |items| > 0 {
      var front := items[..|items| - 1];
      PutAllLastWins(board, front);
      assert forall i :: 0 <= i < |front| ==> front[i] == items[i];
    }
  }

  /**
   The board after `PutAll`: its keys are the old ones and the snapshots' ids; a snapshot's
   id maps to the last snapshot with that id, and every other entry is unchanged.
   */
  lemma PutAllFacts(board: Board, items: seq<MarketBoardCurrentData>)
    ensures var b := PutAll(board, items);
      && (forall k :: k in b <==> k in board || Mentions(items, k))
      && (forall i :: 0 <= i < |items| ==> items[i].itemId in b)
      && (forall k :: k in board && !Mentions(items, k) ==> k in b && b[k] == board[k])
      && (forall i :: 0 <= i < |items| && (forall j :: i < j < |items| ==> items[j].itemId != items[i].itemId) ==>
            items[i].itemId in b && b[items[i].itemId] == items[i])
  {
    PutAllKeys(board, items);
    PutAllLastWins(board, items);
  }

  /** Every entry of a board built by `PutAll` from an empty one is keyed by its own item id. */
  predicate KeyedById(board: Board) {
    forall k :: k in board ==> board[k].itemId == k
  }

  lemma {:induction false} PutAllKeepsKeyedById(board: Board, items: seq<MarketBoardCurrentData>)
    requires KeyedById(board)
    ensures KeyedById(PutAll(board, items))
    decreases |items|
  {
    if |items| > 0 {
      PutAllKeepsKeyedById(board, items[..|items| - 1]);
    }
  }

  /** Putting two lists one after the other is putting their concatenation. */
  lemma {:induction false} PutAllAppend(board: Board, xs: seq<MarketBoardCurrentData>, ys: seq<MarketBoardCurrentData>)
    ensures PutAll(PutAll(board, xs), ys) == PutAll(board, xs + ys)
    decreases |ys|
  {
    if |ys| == 0 {
      assert xs + ys == xs;
    } else {
      var zs := xs + ys;
      PutAllAppend(board, xs, ys[..|ys| - 1]);
      assert zs[..|zs| - 1] == xs + ys[..|ys| - 1];
      assert zs[|zs| - 1] == ys[|ys| - 1];
    }
  }

  // ---------------------------------------------------------------------------------------
  // get_market_board

  lemma MergeFirstBatch(board: Board, items: seq<MarketBoardCurrentData>, fetched: seq<seq<MarketBoardCurrentData>>)
    ensures PutAll(PutAll(board, items), Flatten(fetched)) == PutAll(board, Flatten([items] + fetched))
  {
    PutAllAppend(board, items, Flatten(fetched));
    assert ([items] + fetched)[1..] == fetched;
  }

  /** How a rebuild ended: cut short by the stop signal, or with every batch fetched. */
  datatype Rebuild =
    | Cancelled(limiter: RateLimiter)
    | Completed(board: Board, limiter: RateLimiter, fetched: seq<seq<MarketBoardCurrentData>>)

  /**
   The batch loop from batch `start` on. Before each batch the stop signal is looked at;
   `fetch(ids, j)` is what `get_market_board_current_data` returns for batch `j`, and each
   fetch advances the limiter as that function does. A failed fetch ends the rebuild with
   that failure.
   */
  function RunBatches(board: Board, rl: RateLimiter, batches: seq<seq<int>>, start: nat,
                      stop: nat -> bool,
                      fetch: (seq<int>, nat) -> Result<seq<MarketBoardCurrentData>, Fault>): Result<Rebuild, Fault>
    requires start <= |batches|
    decreases |batches| - start
  {
    if start == |batches| then Success(Completed(board, rl, []))
    else if stop(start) then Success(Cancelled(rl))
    else
      var items :- fetch(batches[start], start);
      var rest :- RunBatches(PutAll(board, items), AfterFetch(rl), batches, start + 1, stop, fetch);
      match rest
      case Cancelled(l) => Success(Cancelled(l))
      case Completed(b, l, fetched) => Success(Completed(b, l, [items] + fetched))
  }

  /** The rebuild is cancelled only by a stop signal, and a signal before a batch cancels it there. */
  lemma {:induction false} RunStopsOnlyOnSignal(board: Board, rl: RateLimiter, batches: seq<seq<int>>, start: nat,
                                                stop: nat -> bool,
                      fetch: (seq<int>, nat) -> Result<seq<MarketBoardCurrentData>, Fault>)
    requires start <= |batches|
    ensures var r := RunBatches(board, rl, batches, start, stop, fetch);
      && (r.Success? && r.value.Cancelled? ==> exists j :: start <= j < |batches| && stop(j))
      && (start < |batches| && stop(start) ==> r == Success(Cancelled(rl)))
    decreases |batches| - start
  {
    if start < |batches| && !stop(start) {
      var f := fetch(batches[start], start);
      if f.Success? {
        RunStopsOnlyOnSignal(PutAll(board, f.value), AfterFetch(rl), batches, start + 1, stop, fetch);
      }
    }
  }

  /** The rebuild fails only with the failure of a batch that was fetched because no stop signal came before it. */
  lemma {:induction false} RunFailsOnlyOnFetch(board: Board, rl: RateLimiter, batches: seq<seq<int>>, start: nat,
                                               stop: nat -> bool,
                      fetch: (seq<int>, nat) -> Result<seq<MarketBoardCurrentData>, Fault>)
    requires start <= |batches|
    ensures var r := RunBatches(board, rl, batches, start, stop, fetch);
      r.Failure? ==>
        exists j :: start <= j < |batches| && !stop(j) && fetch(batches[j], j) == Failure(r.error)
    decreases |batches| - start
  {
    if start < |batches| && !stop(start) {
      var f := fetch(batches[start], start);
      if f.Success? {
        RunFailsOnlyOnFetch(PutAll(board, f.value), AfterFetch(rl), batches, start + 1, stop, fetch);
      }
    }
  }

  /** A completed rebuild saw no stop signal before any batch. */
  lemma {:induction false} RunCompletedSawNoStop(board: Board, rl: RateLimiter, batches: seq<seq<int>>, start: nat,
                                                 stop: nat -> bool,
                      fetch: (seq<int>, nat) -> Result<seq<MarketBoardCurrentData>, Fault>)
    requires start <= |batches|
    ensures var r := RunBatches(board, rl, batches, start, stop, fetch);
      r.Success? && r.value.Completed? ==> forall j :: start <= j < |batches| ==> !stop(j)
    decreases |batches| - start
  {
    if start < |batches| && !stop(start) {
      var f := fetch(batches[start], start);
      if f.Success? {
        RunCompletedSawNoStop(PutAll(board, f.value), AfterFetch(rl), batches, start + 1, stop, fetch);
      }
    }
  }

  /** A completed rebuild fetched every batch, in order, and kept what each fetch returned. */
  lemma {:induction false} RunCompletedFetchedAll(board: Board, rl: RateLimiter, batches: seq<seq<int>>, start: nat,
                                                  stop: nat -> bool,
                      fetch: (seq<int>, nat) -> Result<seq<MarketBoardCurrentData>, Fault>)
    requires start <= |batches|
    ensures var r := RunBatches(board, rl, batches, start, stop, fetch);
      r.Success? && r.value.Completed? ==>
        && |r.value.fetched| == |batches| - start
        && (forall j :: 0 <= j < |r.value.fetched| ==>
              fetch(batches[start + j], start + j) == Success(r.value.fetched[j]))
    decreases |batches| - start
  {
    if start < |batches| && !stop(start) {
      var f := fetch(batches[start], start);
      if f.Success? {
        var items := f.value;
        var next := PutAll(board, items);
        RunCompletedFetchedAll(next, AfterFetch(rl), batches, start + 1, stop, fetch);
        var rest := RunBatches(next, AfterFetch(rl), batches, start + 1, stop, fetch);
        if rest.Success? && rest.value.Completed? {
          var fetched := rest.value.fetched;
          var all := [items] + fetched;
          forall j | 0 <= j < |all|
            ensures fetch(batches[start + j], start + j) == Success(all[j])
          {
            if j > 0 {
              var k := j - 1;
              assert all[j] == fetched[k];
              assert start + j == (start + 1) + k;
            }
          }
        }
      }
    }
  }

  /** The board of a completed rebuild is the initial one with all fetched snapshots put in, batch after batch. */
  lemma {:induction false} RunCompletedMergesAll(board: Board, rl: RateLimiter, batches: seq<seq<int>>, start: nat,
                                                 stop: nat -> bool,
                      fetch: (seq<int>, nat) -> Result<seq<MarketBoardCurrentData>, Fault>)
    requires start <= |batches|
    ensures var r := RunBatches(board, rl, batches, start, stop, fetch);
      r.Success? && r.value.Completed? ==> r.value.board == PutAll(board, Flatten(r.value.fetched))
    decreases |batches| - start
  {
    if start < |batches| && !stop(start) {
      var f := fetch(batches[start], start);
      if f.Success? {
        var items := f.value;
        var next := PutAll(board, items);
        RunCompletedMergesAll(next, AfterFetch(rl), batches, start + 1, stop, fetch);
        var rest := RunBatches(next, AfterFetch(rl), batches, start + 1, stop, fetch);
        if rest.Success? && rest.value.Completed? {
          MergeFirstBatch(board, items, rest.value.fetched);
        }
      }
    }
  }

  /** Without a stop signal and with every batch answered well, the rebuild completes. */
  lemma {:induction false} RunCompletesWithoutStop(board: Board, rl: RateLimiter, batches: seq<seq<int>>, start: nat,
                                                   stop: nat -> bool,
                      fetch: (seq<int>, nat) -> Result<seq<MarketBoardCurrentData>, Fault>)
    requires start <= |batches|
    requires forall j :: start <= j < |batches| ==> !stop(j)
    requires forall j :: start <= j < |batches| ==> fetch(batches[j], j).Success?
    ensures RunBatches(board, rl, batches, start, stop, fetch).Success?
    ensures RunBatches(board, rl, batches, start, stop, fetch).value.Completed?
  {
    RunStopsOnlyOnSignal(board, rl, batches, start, stop, fetch);
    RunFailsOnlyOnFetch(board, rl, batches, start, stop, fetch);
  }

  /** The pickled board on disk and its modification time (seconds since the epoch). */
  datatype CacheFile = CacheFile(modified: real, board: Board)

  /** The cached board is used only while it is younger than the configured number of hours. */
  predicate IsFresh(now: real, modified: real, maxAgeInHours: int) {
    now - modified < (maxAgeInHours * 60 * 60) as real
  }

  datatype Origin = FromCache | Rebuilt | Stopped

  /** The board `get_market_board` returns, where it came from, and the limiter afterwards. A rebuilt board is also written to the cache. */
  datatype Loaded = Loaded(board: Board, origin: Origin, limiter: RateLimiter)

  /**
   `get_market_board`. `marketable` is the list of marketable item ids the API returns; the
   request for it goes through the limiter once. A stop signal during the rebuild gives the
   empty board, never a partial one.
   */
  function GetMarketBoard(cache: Option<CacheFile>, now: real, maxAgeInHours: int, rl: RateLimiter,
                          marketable: seq<int>, stop: nat -> bool,
                          network: nat -> seq<Response>, clock: nat -> int): (r: Result<Loaded, Fault>)
    ensures r.Success? && r.value.origin == FromCache <==> cache.Some? && IsFresh(now, cache.value.modified, maxAgeInHours)
    ensures r.Success? && r.value.origin == FromCache ==> r.value.board == cache.value.board && r.value.limiter == rl
    ensures r.Success? && r.value.origin == Stopped ==>
      r.value.board == map[] && exists j :: 0 <= j < |Batches(marketable, BatchSize)| && stop(j)
    ensures r.Success? && r.value.origin == Rebuilt ==>
      && KeyedById(r.value.board)
      && (forall j :: 0 <= j < |Batches(marketable, BatchSize)| ==> !stop(j))
    ensures r.Success? && r.value.origin == Rebuilt ==>
      exists fetched: seq<seq<MarketBoardCurrentData>> ::
        && |fetched| == |Batches(marketable, BatchSize)|
        && (forall j :: 0 <= j < |fetched| ==>
              FetchItems(Batches(marketable, BatchSize)[j], network(j), clock(j)) == Success(fetched[j]))
        && r.value.board == PutAll(map[], Flatten(fetched))
  {
    if cache.Some? && IsFresh(now, cache.value.modified, maxAgeInHours) then
      Success(Loaded(cache.value.board, FromCache, rl))
    else
      var batches := Batches(marketable, BatchSize);
      var fetch := (ids: seq<int>, j: nat) => FetchItems(ids, network(j), clock(j));
      var run :- RunBatches(map[], Increase(rl).limiter, batches, 0, stop, fetch);
      RunStopsOnlyOnSignal(map[], Increase(rl).limiter, batches, 0, stop, fetch);
      RunCompletedSawNoStop(map[], Increase(rl).limiter, batches, 0, stop, fetch);
      RunCompletedMergesAll(map[], Increase(rl).limiter, batches, 0, stop, fetch);
      RunCompletedFetchedAll(map[], Increase(rl).limiter, batches, 0, stop, fetch);
      match run
      case Cancelled(l) => Success(Loaded(map[], Stopped, l))
      case Completed(b, l, fetched) =>
        PutAllKeepsKeyedById(map[], Flatten(fetched));
        Success(Loaded(b, Rebuilt, l))
  }

  /** No batch of the rebuild ever trips the 100-id assertion. */
  lemma RebuildBatchesFitOneRequest(marketable: seq<int>)
    ensures forall j :: 0 <= j < |Batches(marketable, BatchSize)| ==>
      0 < |Batches(marketable, BatchSize)[j]| <= MaxIdsPerRequest
  {
    BatchesIsBatching(marketable, BatchSize);
  }
}

=== FILE: db.dfy ===
/**
 The database side of the arbitrager: the connection-parameter check and the row buffer
 that collects sales and writes them 25 at a time. The SQL write itself is an output of the
 model: a flush returns the rows it would hand to `executemany`, in order.
 */
module Db {
  import opened Wrappers
  import opened Json
  import opened Helpers

  /** Rows are written as soon as the buffer holds this many. */
  const BufferSize := 25

  datatype DbParameters = DbParameters(host: string, port: int, user: string, password: string, databaseName: string)

  /** `is_valid`: every parameter is set, that is, no string is empty and the port is not 0. */
  predicate IsValid(p: DbParameters) {
    |p.host| > 0 && p.port != 0 && |p.user| > 0 && |p.password| > 0 && |p.databaseName| > 0
  }

  /** Python's `all(xs)`: every element is truthy. */
  function All(xs: seq<Json>): (b: bool)
    ensures b <==> forall i :: 0 <= i < |xs| ==> Truthy(xs[i])
  {
    if |xs| == 0 then true else Truthy(xs[0]) && All(xs[1..])
  }

  /** The list `is_valid` passes to `all`, in field order. */
  function ParameterValues(p: DbParameters): seq<Json> {
    [JStr(p.host), JInt(p.port), JStr(p.user), JStr(p.password), JStr(p.databaseName)]
  }

  /** `IsValid` is exactly `all` over the five parameters. */
  lemma IsValidIsAll(p: DbParameters)
    ensures IsValid(p) <==> All(ParameterValues(p))
  {
    var vs := ParameterValues(p);
    assert Truthy(vs[0]) <==> |p.host| > 0;
    assert Truthy(vs[1]) <==> p.port != 0;
    assert Truthy(vs[2]) <==> |p.user| > 0;
    assert Truthy(vs[3]) <==> |p.password| > 0;
    assert Truthy(vs[4]) <==> |p.databaseName| > 0;
  }

  /** `datetime.fromtimestamp(t, tz=timezone.utc)`, kept as the second it stands for. */
  datatype UtcTime = UtcTime(unixSeconds: int)

  /** One buffered tuple, in the column order of the insert: time, world, item, price, quantity. */
  datatype Row = Row(time: UtcTime, worldId: int, itemId: int, price: int, quantity: int)

  /** The buffer after an operation, and the rows that operation wrote, if it wrote any. */
  datatype BufferStep = BufferStep(buffer: seq<Row>, write: Option<seq<Row>>)

  function Written(step: BufferStep): seq<Row> {
    match step.write
    case Some(rows) => rows
    case None => []
  }

  /** `db_flush_rows`: nothing happens on an empty buffer; otherwise all rows are written, in order, and the buffer is emptied. */
  function FlushRows(buffer: seq<Row>): (r: BufferStep)
    ensures |buffer| == 0 ==> r == BufferStep(buffer, None)
    ensures |buffer| > 0 ==> r.write == Some(buffer) && r.buffer == []
    ensures Written(r) + r.buffer == buffer
  {
    if |buffer| == 0 then BufferStep(buffer, None) else BufferStep([], Some(buffer))
  }

  /**
   `db_insert_row`: the row joins the buffer; when that makes 25 rows the buffer is flushed.
   What was written and what is left together are the old buffer followed by the new row.
   */
  function InsertRow(buffer: seq<Row>, unixTime: int, worldId: int, itemId: int, price: int, quantity: int): (r: BufferStep)
    ensures Written(r) + r.buffer == buffer + [Row(UtcTime(unixTime), worldId, itemId, price, quantity)]
    ensures r.write.Some? <==> |buffer| + 1 >= BufferSize
    ensures r.write.Some? ==> r.buffer == []
    ensures r.write.None? ==> r.buffer == buffer + [Row(UtcTime(unixTime), worldId, itemId, price, quantity)]
    ensures |buffer| < BufferSize ==> |r.buffer| < BufferSize
  {
    var grown := buffer + [Row(UtcTime(unixTime), worldId, itemId, price, quantity)];
    if |grown| >= BufferSize then FlushRows(grown) else BufferStep(grown, None)
  }

  /** Inserting rows one after another: the final buffer and every write, in order. */
  function InsertAll(buffer: seq<Row>, rows: seq<Row>): (seq<Row>, seq<seq<Row>>)
    decreases |rows|
  {
    if |rows| == 0 then (buffer, [])
    else
      var row := rows[0];
      var step := InsertRow(buffer, row.time.unixSeconds, row.worldId, row.itemId, row.price, row.quantity);
      var (rest, writes) := InsertAll(step.buffer, rows[1..]);
      (rest, (if step.write.Some? then [step.write.value] else []) + writes)
  }

  /**
   No row is lost, duplicated or reordered: everything written, followed by what is still
   buffered, is the old buffer followed by the inserted rows; and the buffer stays below 25.
   */
  lemma {:induction false} InsertAllKeepsEveryRow(buffer: seq<Row>, rows: seq<Row>)
    requires |buffer| < BufferSize
    ensures Flatten(InsertAll(buffer, rows).1) + InsertAll(buffer, rows).0 == buffer + rows
    ensures |InsertAll(buffer, rows).0| < BufferSize
    decreases |rows|
  {
    if |rows| > 0 {
      var row := rows[0];
      var step := InsertRow(buffer, row.time.unixSeconds, row.worldId, row.itemId, row.price, row.quantity);
      assert row == Row(UtcTime(row.time.unixSeconds), row.worldId, row.itemId, row.price, row.quantity);
      InsertAllKeepsEveryRow(step.buffer, rows[1..]);
      var (rest, writes) := InsertAll(step.buffer, rows[1..]);
      var first := if step.write.Some? then [step.write.value] else [];
      assert InsertAll(buffer, rows) == (rest, first + writes);
      FlattenConcat(first, writes);
      assert Flatten(first) == Written(step) by {
        if step.write.Some? {
          assert first[1..] == [];
        }
      }
      assert rows == [row] + rows[1..];
      calc {
        Flatten(first + writes) + rest;
        Written(step) + (Flatten(writes) + rest);
        Written(step) + (step.buffer + rows[1..]);
        (Written(step) + step.buffer) + rows[1..];
        buffer + rows;
      }
    }
  }

  /** Every write holds exactly 25 rows. */
  lemma {:induction false} InsertAllWritesFullBuffers(buffer: seq<Row>, rows: seq<Row>)
    requires |buffer| < BufferSize
    ensures forall i :: 0 <= i < |InsertAll(buffer, rows).1| ==> |InsertAll(buffer, rows).1[i]| == BufferSize
    decreases |rows|
  {
    if |rows| > 0 {
      var row := rows[0];
      var step := InsertRow(buffer, row.time.unixSeconds, row.worldId, row.itemId, row.price, row.quantity);
      InsertAllWritesFullBuffers(step.buffer, rows[1..]);
      var writes := InsertAll(step.buffer, rows[1..]).1;
      var first := if step.write.Some? then [step.write.value] else [];
      assert InsertAll(buffer, rows).1 == first + writes;
      forall i | 0 <= i < |first + writes| ensures |(first + writes)[i]| == BufferSize {
        if i >= |first| {
          assert (first + writes)[i] == writes[i - |first|];
        }
      }
    }
  }

  lemma {:induction false} FlattenConcat<T>(xs: seq<seq<T>>, ys: seq<seq<T>>)
    ensures Flatten(xs + ys) == Flatten(xs) + Flatten(ys)
  {
    if |xs| > 0 {
      FlattenConcat(xs[1..], ys);
      assert (xs + ys)[1..] == xs[1..] + ys;
    } else {
      assert xs + ys == ys;
    }
  }
}

=== FILE: decimal.dfy ===
/** Python's `str(n)` for integers, and the decimal parser that undoes it. */
module Decimal {
  import opened Wrappers

  function DigitChar(d: int): (c: char)
    requires 0 <= d < 10
    ensures '0' <= c <= '9'
  {
    (('0' as int) + d) as char
  }

  function DigitValue(c: char): (d: int)
    requires '0' <= c <= '9'
    ensures 0 <= d < 10
    ensures DigitChar(d) == c
  {
    (c as int) - ('0' as int)
  }

  predicate IsDigits(s: string) {
    forall i :: 0 <= i < |s| ==> '0' <= s[i] <= '9'
  }

  /** The decimal digits of `n`, most significant first, without leading zeros. */
  function NatToString(n: nat): (s: string)
    ensures |s| > 0 && IsDigits(s)
    ensures |s| > 1 ==> s[0] != '0'
  {
    if n < 10 then [DigitChar(n)] else NatToString(n / 10) + [DigitChar(n % 10)]
  }

  /** `str(n)`: a minus sign, then the digits of `|n|`. */
  function IntToString(n: int): string {
    if n < 0 then "-" + NatToString(-n) else NatToString(n)
  }

  /** The value of a non-empty string of decimal digits, read from the last digit back. */
  function ParseNat(s: string): Option<nat>
    decreases |s|
  {
    if |s| == 0 || !('0' <= s[|s| - 1] <= '9') then None
    else if |s| == 1 then Some(DigitValue(s[0]))
    else
      match ParseNat(s[..|s| - 1])
      case Some(v) => Some(10 * v + DigitValue(s[|s| - 1]))
      case None => None
  }

  /** `int(s)` for an optional minus sign followed by at least one digit. */
  function ParseInt(s: string): Option<int> {
    if |s| > 0 && s[0] == '-' then
      match ParseNat(s[1..])
      case Some(v) => Some(0 - v)
      case None => None
    else
      match ParseNat(s)
      case Some(v) => Some(v)
      case None => None
  }

  lemma {:induction false} NatRoundTrip(n: nat)
    ensures ParseNat(NatToString(n)) == Some(n)
  {
    var s := NatToString(n);
    if n >= 10 {
      NatRoundTrip(n / 10);
      assert s[..|s| - 1] == NatToString(n / 10);
      assert s[|s| - 1] == DigitChar(n % 10);
    }
  }

  /** A minus sign in front of a number's digits negates the value read. */
  lemma ParseNegated(s: string, v: nat)
    requires ParseNat(s) == Some(v)
    ensures ParseInt("-" + s) == Some(0 - v)
  {
    assert ("-" + s)[1..] == s;
  }

  /** Digits without a sign read as their value. */
  lemma ParseUnsigned(s: string, v: nat)
    requires ParseNat(s) == Some(v) && '0' <= s[0] <= '9'
    ensures ParseInt(s) == Some(v)
  {
  }

  /** `str` is undone by `int`: world ids survive the trip through a channel name. */
  lemma IntRoundTrip(n: int)
    ensures ParseInt(IntToString(n)) == Some(n)
  {
    if n < 0 {
      NatRoundTrip(-n);
      ParseNegated(NatToString(-n), -n);
    } else {
      NatRoundTrip(n);
      ParseUnsigned(NatToString(n), n);
    }
  }
}

=== FILE: events.dfy ===
/**
 The events passed between the three workers. The four type tags are string constants; an
 event pairs a tag with its arguments. The arguments, untyped in the program, are a closed
 set of payload kinds here, one per kind of event the program builds.
 */
module Events {
  import opened Wrappers
  import opened Universalis

  const SaleName := "arbitrager/sale"
  const ListingName := "arbitrager/listing"
  const UpdateItemName := "http-scraper/update-item"
  const UpdateMarketBoardName := "arbitrager/update-market-board"

  datatype Tag = SaleTag | ListingTag | UpdateItemTag | UpdateMarketBoardTag

  /** The string constant of each tag. */
  function TagName(t: Tag): string {
    match t
    case SaleTag => SaleName
    case ListingTag => ListingName
    case UpdateItemTag => UpdateItemName
    case UpdateMarketBoardTag => UpdateMarketBoardName
  }

  /** The tag a type string stands for, if any. */
  function Classify(s: string): (r: Option<Tag>)
    ensures r.Some? ==> TagName(r.value) == s
  {
    if s == SaleName then Some(SaleTag)
    else if s == ListingName then Some(ListingTag)
    else if s == UpdateItemName then Some(UpdateItemTag)
    else if s == UpdateMarketBoardName then Some(UpdateMarketBoardTag)
    else None
  }

  /** Every tag's string is recognised as that tag, so no two tags share a string. */
  lemma ClassifyTagName(t: Tag)
    ensures Classify(TagName(t)) == Some(t)
  {
    assert SaleName[11] == 's' && ListingName[11] == 'l';
    assert UpdateItemName[0] == 'h';
    assert |UpdateMarketBoardName| != |SaleName| && |UpdateMarketBoardName| != |ListingName|;
  }

  /** The four tags are pairwise distinct strings. */
  lemma TagNamesDistinct(t: Tag, u: Tag)
    ensures TagName(t) == TagName(u) <==> t == u
  {
    ClassifyTagName(t);
    ClassifyTagName(u);
  }

  /** What an event carries: a parsed sale or listing event, the `{"item_code": ...}` request, or fetched snapshots. */
  datatype Payload =
    | SalePayload(sale: SaleEvent)
    | ListingPayload(listing: ListingEvent)
    | ItemCodePayload(itemCode: int)
    | SnapshotsPayload(items: seq<MarketBoardCurrentData>)

  /** `Event(type, args)`; the constructor is `Event.new`. */
  datatype Event = Event(eventType: string, args: Payload)

  /** `Event.sale`. */
  function MakeSale(args: Payload): (e: Event)
    ensures Classify(e.eventType) == Some(SaleTag) && e.args == args
  {
    ClassifyTagName(SaleTag);
    Event(SaleName, args)
  }

  /** `Event.listing`. */
  function MakeListing(args: Payload): (e: Event)
    ensures Classify(e.eventType) == Some(ListingTag) && e.args == args
  {
    ClassifyTagName(ListingTag);
    Event(ListingName, args)
  }

  /** `Event.update_item`. */
  function MakeUpdateItem(args: Payload): (e: Event)
    ensures Classify(e.eventType) == Some(UpdateItemTag) && e.args == args
  {
    ClassifyTagName(UpdateItemTag);
    Event(UpdateItemName, args)
  }

  /** `Event.update_market_board`. */
  function MakeUpdateMarketBoard(args: Payload): (e: Event)
    ensures Classify(e.eventType) == Some(UpdateMarketBoardTag) && e.args == args
  {
    ClassifyTagName(UpdateMarketBoardTag);
    Event(UpdateMarketBoardName, args)
  }
}

=== FILE: helpers.dfy ===
/**
 The small helpers of the arbitrager: the `batcher` splitter, the counter-reset rate limiter
 and the exact-text deduplication window in front of the notification webhook.
 */
module Helpers {
  import opened Wrappers

  // ---------------------------------------------------------------------------------------
  // batcher

  /**
   The batch length the generator actually uses: a batch is yielded as soon as its length
   reaches `n`, so any `n <= 0` behaves like 1.
   */
  function Width(n: int): (w: nat)
    ensures w >= 1
    ensures n >= 1 ==> w == n
  {
    if n < 1 then 1 else n
  }

  function Flatten<T>(bs: seq<seq<T>>): seq<T> {
    if |bs| == 0 then [] else bs[0] + Flatten(bs[1..])
  }

  /**
   A splitting of `xs` into batches of width `Width(n)`: concatenated they give `xs` back,
   every batch is non-empty and at most that wide, and all but the last are exactly that wide.
   */
  ghost predicate IsBatching<T>(bs: seq<seq<T>>, xs: seq<T>, n: int) {
    && Flatten(bs) == xs
    && (forall i :: 0 <= i < |bs| ==> 0 < |bs[i]| <= Width(n))
    && (forall i :: 0 <= i < |bs| - 1 ==> |bs[i]| == Width(n))
  }

  /** The batches `batcher(xs, n)` yields, as a list. */
  function Batches<T>(xs: seq<T>, n: int): seq<seq<T>>
    decreases |xs|
  {
    if |xs| == 0 then []
    else if |xs| <= Width(n) then [xs]
    else [xs[..Width(n)]] + Batches(xs[Width(n)..], n)
  }

  lemma {:induction false} FlattenAppend<T>(bs: seq<seq<T>>, b: seq<T>)
    ensures Flatten(bs + [b]) == Flatten(bs) + b
  {
    if |bs| == 0 {
      assert bs + [b] == [b];
    } else {
      assert (bs + [b])[1..] == bs[1..] + [b];
      FlattenAppend(bs[1..], b);
    }
  }

  /** `Batches` is a batching of its input. */
  lemma {:induction false} BatchesIsBatching<T>(xs: seq<T>, n: int)
    ensures IsBatching(Batches(xs, n), xs, n)
    decreases |xs|
  {
    var w := Width(n);
    if |xs| == 0 {
    } else if |xs| <= w {
      assert Flatten([xs]) == xs + Flatten([xs][1..]);
    } else {
      BatchesIsBatching(xs[w..], n);
      var rest := Batches(xs[w..], n);
      var bs := [xs[..w]] + rest;
      assert bs[1..] == rest;
      assert forall i :: 1 <= i < |bs| ==> bs[i] == rest[i - 1];
      assert Flatten(bs) == xs[..w] + Flatten(rest);
      assert xs[..w] + xs[w..] == xs;
    }
  }

  /** There is only one batching of a sequence for a given width: the one `Batches` computes. */
  lemma {:induction false} BatchingIsUnique<T>(bs: seq<seq<T>>, xs: seq<T>, n: int)
    requires IsBatching(bs, xs, n)
    ensures bs == Batches(xs, n)
    decreases |xs|
  {
    var w := Width(n);
    if |bs| == 0 {
      assert xs == [];
    } else {
      assert Flatten(bs) == bs[0] + Flatten(bs[1..]);
      if |bs| == 1 {
        assert bs[1..] == [];
        assert xs == bs[0];
      } else {
        assert |bs[0]| == w;
        var rest := Flatten(bs[1..]);
        assert |bs[1]| > 0;
        assert Flatten(bs[1..]) == bs[1] + Flatten(bs[2..]) by { assert bs[1..][1..] == bs[2..]; }
        assert |xs| > w;
        assert xs[..w] == bs[0];
        assert xs[w..] == rest;
        BatchingIsUnique(bs[1..], rest, n);
        assert bs == [bs[0]] + bs[1..];
      }
    }
  }

  /** The `batcher` generator, run to exhaustion with the same loop as the source. */
  method Batcher<T>(xs: seq<T>, n: int) returns (bs: seq<seq<T>>)
    ensures IsBatching(bs, xs, n)
    ensures bs == Batches(xs, n)
  {
    bs := [];
    var batch: seq<T> := [];
    for i := 0 to |xs|
      invariant Flatten(bs) + batch == xs[..i]
      invariant |batch| < Width(n)
      invariant forall k :: 0 <= k < |bs| ==> |bs[k]| == Width(n)
    {
      batch := batch + [xs[i]];
      assert Flatten(bs) + batch == xs[..i + 1];
      if |batch| >= n {
        FlattenAppend(bs, batch);
        bs := bs + [batch];
        batch := [];
      }
    }
    assert xs[..|xs|] == xs;
    if |batch| > 0 {
      FlattenAppend(bs, batch);
      bs := bs + [batch];
    }
    BatchingIsUnique(bs, xs, n);
  }

  // ---------------------------------------------------------------------------------------
  // RateLimiter

  /** `RateLimiter`: a call counter and the number of calls allowed before a one-second pause. */
  datatype RateLimiter = RateLimiter(counter: int, requestsPerSecond: int)

  /** The limiter after a call, and whether that call paused (`time.sleep(1)`). */
  datatype Tick = Tick(limiter: RateLimiter, paused: bool)

  function NewRateLimiter(requestsPerSecond: int): RateLimiter {
    RateLimiter(0, requestsPerSecond)
  }

  /** `RateLimiter.increase`: count the call; on reaching the limit, pause and start over. */
  function Increase(rl: RateLimiter): (t: Tick)
    ensures t.limiter.requestsPerSecond == rl.requestsPerSecond
    ensures rl.requestsPerSecond > 0 ==> t.limiter.counter < rl.requestsPerSecond
    ensures rl.counter >= 0 ==> t.limiter.counter >= 0
    ensures t.paused <==> rl.counter + 1 >= rl.requestsPerSecond
    ensures t.paused ==> t.limiter.counter == 0
    ensures !t.paused ==> t.limiter.counter == rl.counter + 1
  {
    var c := rl.counter + 1;
    if c >= rl.requestsPerSecond then Tick(RateLimiter(0, rl.requestsPerSecond), true)
    else Tick(RateLimiter(c, rl.requestsPerSecond), false)
  }

  /** `k` consecutive calls: the final limiter and how many of the calls paused. */
  function IncreaseTimes(rl: RateLimiter, k: nat): (RateLimiter, nat) {
    if k == 0 then (rl, 0)
    else
      var (mid, pauses) := IncreaseTimes(rl, k - 1);
      var t := Increase(mid);
      (t.limiter, pauses + if t.paused then 1 else 0)
  }

  /**
   From a fresh limiter, `k` calls pause exactly `p` times and leave the counter at `c` with
   `k == p * N + c` and `0 <= c < N` (that is, `p = k div N`, `c = k mod N`): no more than N
   calls ever go through between two pauses.
   */
  lemma {:induction false} PausesEveryNthCall(requestsPerSecond: int, k: nat)
    requires requestsPerSecond > 0
    ensures
      var (rl, pauses) := IncreaseTimes(NewRateLimiter(requestsPerSecond), k);
      && rl.requestsPerSecond == requestsPerSecond
      && 0 <= rl.counter < requestsPerSecond
      && k == pauses * requestsPerSecond + rl.counter
  {
    var n := requestsPerSecond;
    if k > 0 {
      PausesEveryNthCall(n, k - 1);
      var (mid, p) := IncreaseTimes(NewRateLimiter(n), k - 1);
      if mid.counter + 1 >= n {
        assert (p + 1) * n == p * n + n;
      }
    }
  }

  // ---------------------------------------------------------------------------------------
  // dispatch_discord_notification

  /** A message is evicted once the window reaches this many entries. */
  const DedupWindowSize := 10

  /** The notification limiter allows 50 posts before it pauses. */
  const NotificationsPerSecond := 50

  /** The recently sent messages (oldest first) and the notification rate limiter. */
  datatype Notifier = Notifier(recent: seq<string>, limiter: RateLimiter)

  /** What one dispatch did. */
  datatype Dispatch =
    | AlreadySent                        // the exact text is in the window: skipped
    | NoWebhook                          // no webhook configured: skipped with a warning
    | Posted(url: string, content: string)  // posted `{"content": content}` to `url`

  function NewNotifier(): Notifier {
    Notifier([], NewRateLimiter(NotificationsPerSecond))
  }

  predicate Configured(webhook: Option<string>) {
    webhook.Some? && |webhook.value| > 0
  }

  /** `dispatch_discord_notification`, with the HTTP post returned instead of performed. */
  function DispatchNotification(nt: Notifier, message: string, webhook: Option<string>): (r: (Notifier, Dispatch))
    ensures message in nt.recent ==> r == (nt, AlreadySent)
    ensures message !in nt.recent && !Configured(webhook) ==> r == (nt, NoWebhook)
    ensures r.1.Posted? <==> message !in nt.recent && Configured(webhook)
    ensures r.1.Posted? ==> r.1 == Posted(webhook.value, message)
    ensures r.1.Posted? ==> |r.0.recent| > 0 && r.0.recent[|r.0.recent| - 1] == message
    ensures r.1.Posted? ==> |r.0.recent| == if |nt.recent| + 1 >= DedupWindowSize then |nt.recent| else |nt.recent| + 1
    ensures r.1.Posted? ==> r.0.recent == (nt.recent + [message])[|nt.recent| + 1 - |r.0.recent|..]
    ensures r.1.Posted? ==> r.0.limiter == Increase(nt.limiter).limiter
    ensures |nt.recent| < DedupWindowSize ==> |r.0.recent| < DedupWindowSize
  {
    if message in nt.recent then (nt, AlreadySent)
    else if !Configured(webhook) then (nt, NoWebhook)
    else
      var appended := nt.recent + [message];
      var recent := if |appended| >= DedupWindowSize then appended[1..] else appended;
      (Notifier(recent, Increase(nt.limiter).limiter), Posted(webhook.value, message))
  }

  /** Several dispatches in a row: the final notifier and what each dispatch did. */
  function DispatchAll(nt: Notifier, messages: seq<string>, webhook: Option<string>): (r: (Notifier, seq<Dispatch>))
    ensures |r.1| == |messages|
    decreases |messages|
  {
    if |messages| == 0 then (nt, [])
    else
      var (nt', d) := DispatchNotification(nt, messages[0], webhook);
      var (last, ds) := DispatchAll(nt', messages[1..], webhook);
      (last, [d] + ds)
  }

  /** Dispatching a first message and then the rest is dispatching them all. */
  lemma DispatchAllCons(nt: Notifier, message: string, rest: seq<string>, webhook: Option<string>)
    ensures var first := DispatchNotification(nt, message, webhook);
      var after := DispatchAll(first.0, rest, webhook);
      DispatchAll(nt, [message] + rest, webhook) == (after.0, [first.1] + after.1)
  {
    assert ([message] + rest)[1..] == rest;
  }

  ghost predicate NoDuplicates(s: seq<string>) {
    forall i, j :: 0 <= i < j < |s| ==> s[i] != s[j]
  }

  /** The window never holds the same text twice and never grows past nine entries. */
  lemma WindowStaysDistinctAndBounded(nt: Notifier, message: string, webhook: Option<string>)
    requires NoDuplicates(nt.recent) && |nt.recent| < DedupWindowSize
    ensures NoDuplicates(DispatchNotification(nt, message, webhook).0.recent)
    ensures |DispatchNotification(nt, message, webhook).0.recent| < DedupWindowSize
  {
  }

  /** `m` is among the last `k` entries of the window. */
  ghost predicate AmongLast(recent: seq<string>, m: string, k: int) {
    exists i :: 0 <= i < |recent| && |recent| - k <= i && recent[i] == m
  }

  lemma {:induction false} AmongLastSurvivesDispatches(nt: Notifier, m: string, k: nat, others: seq<string>, webhook: Option<string>)
    requires AmongLast(nt.recent, m, k)
    requires k + |others| <= DedupWindowSize - 1
    ensures AmongLast(DispatchAll(nt, others, webhook).0.recent, m, k + |others|)
    decreases |others|
  {
    if |others| > 0 {
      var (nt', d) := DispatchNotification(nt, others[0], webhook);
      assert AmongLast(nt'.recent, m, k + 1) by {
        var i :| 0 <= i < |nt.recent| && |nt.recent| - k <= i && nt.recent[i] == m;
        if d.Posted? {
          var appended := nt.recent + [others[0]];
          assert appended[i] == m;
          if |appended| >= DedupWindowSize {
            assert i >= 1;
            assert nt'.recent == appended[1..];
            assert nt'.recent[i - 1] == m;
          } else {
            assert nt'.recent == appended;
          }
        }
      }
      AmongLastSurvivesDispatches(nt', m, k + 1, others[1..], webhook);
    }
  }

  /**
   Deduplication: once a text has been posted, dispatching it again within the next eight
   dispatches (whatever they were) posts nothing.
   */
  lemma RepeatWithinWindowIsSuppressed(nt: Notifier, m: string, others: seq<string>, webhook: Option<string>)
    requires |others| <= DedupWindowSize - 2
    ensures
      var (afterFirst, first) := DispatchNotification(nt, m, webhook);
      var (afterOthers, _) := DispatchAll(afterFirst, others, webhook);
      first.Posted? ==> DispatchNotification(afterOthers, m, webhook).1 == AlreadySent
  {
    var (afterFirst, first) := DispatchNotification(nt, m, webhook);
    if first.Posted? {
      assert afterFirst.recent[|afterFirst.recent| - 1] == m;
      assert AmongLast(afterFirst.recent, m, 1);
      AmongLastSurvivesDispatches(afterFirst, m, 1, others, webhook);
    }
  }
}

=== FILE: json.dfy ===
/**
 A decoded JSON (or BSON) document as the Python code sees it after `response.json()` or
 `bson.decode`, together with the few Python operations the code applies to it: truthiness,
 `key in v`, `v[key]`, iteration and `.items()`. Objects keep their fields in insertion
 order, as Python dicts do.
 */
module Json {
  import opened Wrappers
  import opened Faults

  datatype Json =
    | JNull
    | JBool(b: bool)
    | JInt(i: int)
    | JReal(r: real)
    | JStr(s: string)
    | JArr(elems: seq<Json>)
    | JObj(fields: seq<(string, Json)>)

  /** Python's `bool(v)`. */
  predicate Truthy(v: Json) {
    match v
    case JNull => false
    case JBool(b) => b
    case JInt(i) => i != 0
    case JReal(x) => x != 0.0
    case JStr(s) => |s| > 0
    case JArr(e) => |e| > 0
    case JObj(f) => |f| > 0
  }

  predicate HasKey(fields: seq<(string, Json)>, key: string) {
    exists i :: 0 <= i < |fields| && fields[i].0 == key
  }

  /**
   A decoded object never repeats a key: `json.loads` and `bson.decode` keep the last binding
   of a repeated key and drop the others. The encoders of this model produce distinct keys.
   */
  predicate DistinctKeys(fields: seq<(string, Json)>) {
    forall i, j :: 0 <= i < j < |fields| ==> fields[i].0 != fields[j].0
  }

  /** The value bound to `key`: on an object with distinct keys, its only binding. */
  function Lookup(fields: seq<(string, Json)>, key: string): Option<Json> {
    if |fields| == 0 then None
    else if fields[0].0 == key then Some(fields[0].1)
    else Lookup(fields[1..], key)
  }

  lemma {:induction false} LookupFound(fields: seq<(string, Json)>, key: string)
    ensures Lookup(fields, key).Some? <==> HasKey(fields, key)
    ensures Lookup(fields, key).Some? ==>
      exists i :: 0 <= i < |fields| && fields[i] == (key, Lookup(fields, key).value)
  {
    if |fields| > 0 && fields[0].0 != key {
      LookupFound(fields[1..], key);
      var r := Lookup(fields[1..], key);
      if HasKey(fields[1..], key) {
        var i :| 0 <= i < |fields[1..]| && fields[1..][i].0 == key;
        assert fields[i + 1].0 == key;
      }
      if HasKey(fields, key) {
        var i :| 0 <= i < |fields| && fields[i].0 == key;
        assert i > 0 && fields[1..][i - 1].0 == key;
      }
      if r.Some? {
        var i :| 0 <= i < |fields[1..]| && fields[1..][i] == (key, r.value);
        assert fields[i + 1] == (key, r.value);
      }
    }
  }

  /** The binding at index `i` is the one found when no earlier field has the same key. */
  lemma {:induction false} LookupAt(fields: seq<(string, Json)>, i: nat, key: string)
    requires i < |fields| && fields[i].0 == key
    requires forall j :: 0 <= j < i ==> fields[j].0 != key
    ensures Lookup(fields, key) == Some(fields[i].1)
    ensures Get(JObj(fields), key) == Success(fields[i].1)
  {
    if i > 0 {
      LookupAt(fields[1..], i - 1, key);
    }
  }

  predicate OccursAt(k: string, s: string, i: int) {
    0 <= i && i + |k| <= |s| && s[i..i + |k|] == k
  }

  predicate IsSubstring(k: string, s: string) {
    exists i :: 0 <= i <= |s| && OccursAt(k, s, i)
  }

  /** Python's `key in v` for a string `key`. */
  function Contains(v: Json, key: string): Result<bool, Fault> {
    match v
    case JObj(f) => Success(HasKey(f, key))
    case JArr(e) => Success(JStr(key) in e)
    case JStr(s) => Success(IsSubstring(key, s))
    case _ => Failure(TypeError)
  }

  /** Python's `v[key]` for a string `key`. */
  function Get(v: Json, key: string): (r: Result<Json, Fault>)
    ensures r.Success? <==> v.JObj? && Lookup(v.fields, key).Some?
    ensures r.Success? ==> Lookup(v.fields, key) == Some(r.value)
    ensures v.JObj? && Lookup(v.fields, key).None? ==> r == Failure(KeyError(key))
    ensures !v.JObj? ==> r == Failure(TypeError)
  {
    match v
    case JObj(f) =>
      (match Lookup(f, key)
       case Some(x) => Success(x)
       case None => Failure(KeyError(key)))
    case _ => Failure(TypeError)
  }

  /** The elements Python's `for x in v` visits: a dict yields its keys, a string its characters. */
  function Iterate(v: Json): Result<seq<Json>, Fault> {
    match v
    case JArr(e) => Success(e)
    case JObj(f) => Success(seq(|f|, i requires 0 <= i < |f| => JStr(f[i].0)))
    case JStr(s) => Success(seq(|s|, i requires 0 <= i < |s| => JStr([s[i]])))
    case _ => Failure(TypeError)
  }

  /** The values visited by `for _, x in v.items()`, in insertion order. */
  function Values(v: Json): (r: Result<seq<Json>, Fault>)
    ensures v.JObj? ==> r.Success? && |r.value| == |v.fields|
    ensures v.JObj? ==> forall i :: 0 <= i < |v.fields| ==> r.value[i] == v.fields[i].1
    ensures !v.JObj? ==> r == Failure(AttributeError)
  {
    match v
    case JObj(f) => Success(seq(|f|, i requires 0 <= i < |f| => f[i].1))
    case _ => Failure(AttributeError)
  }

  /**
   On an object with distinct keys, `for key, x in v.items()` visits the values `v[key]`
   gives: the `i`-th value is the one bound to the `i`-th key.
   */
  lemma ValuesAreLookups(v: Json)
    requires v.JObj? && DistinctKeys(v.fields)
    ensures Values(v).Success?
    ensures forall i :: 0 <= i < |v.fields| ==> Get(v, v.fields[i].0) == Success(Values(v).value[i])
  {
    forall i | 0 <= i < |v.fields| ensures Get(v, v.fields[i].0) == Success(Values(v).value[i]) {
      LookupAt(v.fields, i, v.fields[i].0);
    }
  }

  function GetInt(v: Json, key: string): Result<int, Fault> {
    var x :- Get(v, key);
    if x.JInt? then Success(x.i) else Failure(TypeError)
  }

  /** A float field: JSON integers are accepted too, as Python would store them. */
  function GetNumber(v: Json, key: string): Result<real, Fault> {
    var x :- Get(v, key);
    match x
    case JInt(i) => Success(i as real)
    case JReal(r) => Success(r)
    case _ => Failure(TypeError)
  }

  function GetBool(v: Json, key: string): Result<bool, Fault> {
    var x :- Get(v, key);
    if x.JBool? then Success(x.b) else Failure(TypeError)
  }

  function GetString(v: Json, key: string): Result<string, Fault> {
    var x :- Get(v, key);
    if x.JStr? then Success(x.s) else Failure(TypeError)
  }

  /**
   Python's list comprehension `[f(x) for x in xs]`: one result per element, in order; the
   first element whose conversion raises makes the whole comprehension raise.
   */
  function ParseAll<T>(xs: seq<Json>, f: Json -> Result<T, Fault>): (r: Result<seq<T>, Fault>)
    ensures r.Success? <==> forall i :: 0 <= i < |xs| ==> f(xs[i]).Success?
    ensures r.Success? ==> |r.value| == |xs|
    ensures r.Success? ==> forall i :: 0 <= i < |xs| ==> f(xs[i]) == Success(r.value[i])
    ensures r.Failure? ==>
      exists i :: 0 <= i < |xs| && f(xs[i]) == Failure(r.error)
                  && forall j :: 0 <= j < i ==> f(xs[j]).Success?
  {
    if |xs| == 0 then Success([])
    else
      match f(xs[0])
      case Failure(e) => Failure(e)
      case Success(y) =>
        match ParseAll(xs[1..], f)
        case Failure(e) =>
          assert exists i :: 0 <= i < |xs| && f(xs[i]) == Failure(e)
                             && forall j :: 0 <= j < i ==> f(xs[j]).Success? by {
            var i :| 0 <= i < |xs[1..]| && f(xs[1..][i]) == Failure(e)
                     && forall j :: 0 <= j < i ==> f(xs[1..][j]).Success?;
            assert f(xs[i + 1]) == Failure(e);
            forall j | 0 <= j < i + 1
              ensures f(xs[j]).Success?
            {
              if j > 0 {
                assert xs[j] == xs[1..][j - 1];
              }
            }
          }
          Failure(e)
        case Success(ys) =>
          assert forall i :: 1 <= i < |xs| ==> xs[i] == xs[1..][i - 1];
          Success([y] + ys)
  }

  /** Parsing the element-wise JSON images of some values gives those values back. */
  lemma {:induction false} ParseAllRoundTrip<T>(vs: seq<T>, xs: seq<Json>, enc: T -> Json, f: Json -> Result<T, Fault>)
    requires forall v :: f(enc(v)) == Success(v)
    requires |xs| == |vs| && forall i :: 0 <= i < |vs| ==> xs[i] == enc(vs[i])
    ensures ParseAll(xs, f) == Success(vs)
  {
    assert forall i :: 0 <= i < |xs| ==> f(xs[i]) == Success(vs[i]);
    var r := ParseAll(xs, f);
    assert r.Success?;
    assert r.value == vs;
  }
}

=== FILE: min_prices.dfy ===
/**
 `MarketBoardCurrentData.min_listings` and `min_listing_on_world`: the cheapest listing
 price per (world, quality) group of a snapshot, and the lookup of one group's price with 0
 standing for "no such listing". The source computes the groups with a dataframe
 group-by/min/sort; here they are specified by their result and computed with plain
 sequence functions.
 */
module MinPrices {
  import opened Universalis

  /** One row of `min_listings`: `(world_id, hq, price_per_unit)`. */
  datatype MinListing = MinListing(worldId: int, hq: bool, price: int)

  function KeyOf(m: MinListing): (int, bool) {
    (m.worldId, m.hq)
  }

  predicate Matches(l: Listing, worldId: int, hq: bool) {
    l.worldId == worldId && l.hq == hq
  }

  predicate HasMatch(ls: seq<Listing>, worldId: int, hq: bool) {
    exists j :: 0 <= j < |ls| && Matches(ls[j], worldId, hq)
  }

  /** `p` is the lowest unit price among the listings of world `worldId` and quality `hq`. */
  ghost predicate IsGroupMin(ls: seq<Listing>, worldId: int, hq: bool, p: int) {
    && (exists j :: 0 <= j < |ls| && Matches(ls[j], worldId, hq) && ls[j].pricePerUnit == p)
    && (forall j :: 0 <= j < |ls| && Matches(ls[j], worldId, hq) ==> p <= ls[j].pricePerUnit)
  }

  /** Some row belongs to group `(worldId, hq)`. */
  predicate HasRow(rows: seq<MinListing>, worldId: int, hq: bool) {
    exists i :: 0 <= i < |rows| && KeyOf(rows[i]) == (worldId, hq)
  }

  ghost predicate DistinctKeys(rows: seq<MinListing>) {
    forall i, j :: 0 <= i < j < |rows| ==> KeyOf(rows[i]) != KeyOf(rows[j])
  }

  ghost predicate SortedByPrice(rows: seq<MinListing>) {
    forall i, j :: 0 <= i < j < |rows| ==> rows[i].price <= rows[j].price
  }

  // ---------------------------------------------------------------------------------------
  // Grouping

  /** The minimum price of one group, which must have at least one listing. */
  function GroupMin(ls: seq<Listing>, worldId: int, hq: bool): (p: int)
    requires HasMatch(ls, worldId, hq)
    ensures IsGroupMin(ls, worldId, hq, p)
    decreases |ls|
  {
    var head := ls[0];
    var rest := ls[1..];
    assert forall j :: 1 <= j < |ls| ==> ls[j] == rest[j - 1];
    if !Matches(head, worldId, hq) then
      assert HasMatch(rest, worldId, hq) by {
        var j :| 0 <= j < |ls| && Matches(ls[j], worldId, hq);
        assert Matches(rest[j - 1], worldId, hq);
      }
      var p := GroupMin(rest, worldId, hq);
      assert IsGroupMin(ls, worldId, hq, p) by {
        var j :| 0 <= j < |rest| && Matches(rest[j], worldId, hq) && rest[j].pricePerUnit == p;
        assert ls[j + 1] == rest[j];
      }
      p
    else if !HasMatch(rest, worldId, hq) then
      assert forall j :: 1 <= j < |ls| ==> !Matches(ls[j], worldId, hq) by {
        forall j | 1 <= j < |ls| ensures !Matches(ls[j], worldId, hq) {
          assert ls[j] == rest[j - 1];
        }
      }
      head.pricePerUnit
    else
      var q := GroupMin(rest, worldId, hq);
      var p := if head.pricePerUnit <= q then head.pricePerUnit else q;
      assert IsGroupMin(ls, worldId, hq, p) by {
        var j :| 0 <= j < |rest| && Matches(rest[j], worldId, hq) && rest[j].pricePerUnit == q;
        assert ls[j + 1] == rest[j];
      }
      p
  }

  /** The (world, quality) groups of `ls`, each once, in order of first appearance. */
  function Groups(ls: seq<Listing>): seq<(int, bool)>
    decreases |ls|
  {
    if |ls| == 0 then []
    else
      var g := Groups(ls[..|ls| - 1]);
      var k := (ls[|ls| - 1].worldId, ls[|ls| - 1].hq);
      if k in g then g else g + [k]
  }

  lemma {:induction false} GroupsFacts(ls: seq<Listing>)
    ensures var ks := Groups(ls);
      && (forall i, j :: 0 <= i < j < |ks| ==> ks[i] != ks[j])
      && (forall j :: 0 <= j < |ls| ==> (ls[j].worldId, ls[j].hq) in ks)
      && (forall i :: 0 <= i < |ks| ==> HasMatch(ls, ks[i].0, ks[i].1))
    decreases |ls|
  {
    if |ls| > 0 {
      var init := ls[..|ls| - 1];
      GroupsFacts(init);
      var g := Groups(init);
      assert forall j :: 0 <= j < |init| ==> ls[j] == init[j];
      forall i | 0 <= i < |g| ensures HasMatch(ls, g[i].0, g[i].1) {
        var j :| 0 <= j < |init| && Matches(init[j], g[i].0, g[i].1);
        assert Matches(ls[j], g[i].0, g[i].1);
      }
      assert Matches(ls[|ls| - 1], ls[|ls| - 1].worldId, ls[|ls| - 1].hq);
    }
  }

  /** One row per group with the group's minimum price, in group order. */
  function GroupRows(ls: seq<Listing>): (rows: seq<MinListing>)
    ensures |rows| == |Groups(ls)|
    ensures forall i :: 0 <= i < |rows| ==> KeyOf(rows[i]) == Groups(ls)[i]
  {
    var ks := Groups(ls);
    GroupsFacts(ls);
    seq(|ks|, i requires 0 <= i < |ks| => MinListing(ks[i].0, ks[i].1, GroupMin(ls, ks[i].0, ks[i].1)))
  }

  lemma GroupRowsDistinct(ls: seq<Listing>)
    ensures DistinctKeys(GroupRows(ls))
  {
    GroupsFacts(ls);
  }

  lemma GroupRowsCover(ls: seq<Listing>)
    ensures forall j :: 0 <= j < |ls| ==> HasRow(GroupRows(ls), ls[j].worldId, ls[j].hq)
  {
    var ks := Groups(ls);
    var rows := GroupRows(ls);
    GroupsFacts(ls);
    forall j | 0 <= j < |ls| ensures HasRow(rows, ls[j].worldId, ls[j].hq) {
      var i :| 0 <= i < |ks| && ks[i] == (ls[j].worldId, ls[j].hq);
      assert KeyOf(rows[i]) == ks[i];
    }
  }

  lemma GroupRowsMin(ls: seq<Listing>)
    ensures forall i :: 0 <= i < |GroupRows(ls)| ==>
      IsGroupMin(ls, GroupRows(ls)[i].worldId, GroupRows(ls)[i].hq, GroupRows(ls)[i].price)
  {
    var ks := Groups(ls);
    var rows := GroupRows(ls);
    GroupsFacts(ls);
    forall i | 0 <= i < |rows| ensures IsGroupMin(ls, rows[i].worldId, rows[i].hq, rows[i].price) {
      assert rows[i] == MinListing(ks[i].0, ks[i].1, GroupMin(ls, ks[i].0, ks[i].1));
    }
  }

  // ---------------------------------------------------------------------------------------
  // Ordering by price

  function Insert(e: MinListing, s: seq<MinListing>): seq<MinListing>
    decreases |s|
  {
    if |s| == 0 || e.price <= s[0].price then [e] + s
    else [s[0]] + Insert(e, s[1..])
  }

  lemma {:induction false} InsertFacts(e: MinListing, s: seq<MinListing>)
    requires SortedByPrice(s)
    ensures var r := Insert(e, s);
      && SortedByPrice(r)
      && |r| == |s| + 1
      && (forall x :: x in r <==> x == e || x in s)
    decreases |s|
  {
    var r := Insert(e, s);
    if |s| == 0 || e.price <= s[0].price {
      forall x | x in s ensures e.price <= x.price {
        var k :| 0 <= k < |s| && s[k] == x;
        assert k == 0 || s[0].price <= s[k].price;
      }
      assert forall i :: 1 <= i < |r| ==> r[i] == s[i - 1];
    } else {
      InsertFacts(e, s[1..]);
      var t := Insert(e, s[1..]);
      assert r == [s[0]] + t;
      assert forall i :: 1 <= i < |r| ==> r[i] == t[i - 1];
      forall i, j | 0 <= i < j < |r| ensures r[i].price <= r[j].price {
        if i == 0 {
          assert r[j] in t;
          if r[j] != e {
            var k :| 0 <= k < |s[1..]| && s[1..][k] == r[j];
            assert s[k + 1] == r[j];
          }
        }
      }
      assert s == [s[0]] + s[1..];
    }
  }

  lemma {:induction false} InsertKeepsKeysDistinct(e: MinListing, s: seq<MinListing>)
    requires SortedByPrice(s) && DistinctKeys(s)
    requires forall x :: x in s ==> KeyOf(x) != KeyOf(e)
    ensures DistinctKeys(Insert(e, s))
    decreases |s|
  {
    var r := Insert(e, s);
    InsertFacts(e, s);
    if |s| == 0 || e.price <= s[0].price {
      assert forall i :: 1 <= i < |r| ==> r[i] == s[i - 1];
      forall i, j | 0 <= i < j < |r| ensures KeyOf(r[i]) != KeyOf(r[j]) {
        if i > 0 {
          assert r[i] == s[i - 1] && r[j] == s[j - 1];
        } else {
          assert r[j] in s;
        }
      }
    } else {
      var rest := s[1..];
      assert forall i :: 0 <= i < |rest| ==> rest[i] == s[i + 1];
      assert SortedByPrice(rest);
      assert DistinctKeys(rest);
      InsertKeepsKeysDistinct(e, rest);
      InsertFacts(e, rest);
      var t := Insert(e, rest);
      assert forall i :: 1 <= i < |r| ==> r[i] == t[i - 1];
      forall x | x in rest ensures KeyOf(x) != KeyOf(s[0]) {
        var k :| 0 <= k < |rest| && rest[k] == x;
        assert s[k + 1] == x;
      }
      forall i, j | 0 <= i < j < |r| ensures KeyOf(r[i]) != KeyOf(r[j]) {
        if i == 0 {
          assert r[j] in t;
        } else {
          assert r[i] == t[i - 1] && r[j] == t[j - 1];
        }
      }
    }
  }

  function SortByPrice(s: seq<MinListing>): seq<MinListing>
    decreases |s|
  {
    if |s| == 0 then [] else Insert(s[0], SortByPrice(s[1..]))
  }

  /** Sorting orders the rows by price and keeps exactly the same rows. */
  lemma {:induction false} SortFacts(s: seq<MinListing>)
    ensures var r := SortByPrice(s);
      && SortedByPrice(r)
      && |r| == |s|
      && (forall x :: x in r <==> x in s)
      && (DistinctKeys(s) ==> DistinctKeys(r))
    decreases |s|
  {
    if |s| > 0 {
      var rest := s[1..];
      SortFacts(rest);
      var sorted := SortByPrice(rest);
      InsertFacts(s[0], sorted);
      assert s == [s[0]] + rest;
      if DistinctKeys(s) {
        assert forall i :: 0 <= i < |rest| ==> rest[i] == s[i + 1];
        assert DistinctKeys(rest);
        forall x | x in sorted ensures KeyOf(x) != KeyOf(s[0]) {
          var k :| 0 <= k < |rest| && rest[k] == x;
          assert s[k + 1] == x;
        }
        InsertKeepsKeysDistinct(s[0], sorted);
      }
    }
  }

  // ---------------------------------------------------------------------------------------
  // The two queries

  /**
   `min_listings`: no rows without listings; otherwise every (world, quality) group appears
   exactly once, carrying the lowest unit price of its listings, and the rows go by
   ascending price. Rows of equal price may come in any order.
   */
  function MinListings(d: MarketBoardCurrentData): (rows: seq<MinListing>)
    ensures |d.listings| == 0 ==> rows == []
    ensures DistinctKeys(rows)
    ensures forall j :: 0 <= j < |d.listings| ==> HasRow(rows, d.listings[j].worldId, d.listings[j].hq)
    ensures forall i :: 0 <= i < |rows| ==> IsGroupMin(d.listings, rows[i].worldId, rows[i].hq, rows[i].price)
    ensures SortedByPrice(rows)
  {
    var unsorted := GroupRows(d.listings);
    GroupRowsDistinct(d.listings);
    GroupRowsCover(d.listings);
    GroupRowsMin(d.listings);
    SortFacts(unsorted);
    MinListingsTransfer(d.listings, unsorted, SortByPrice(unsorted));
    SortByPrice(unsorted)
  }

  /** Reordering the rows keeps every group covered and every minimum. */
  lemma MinListingsTransfer(ls: seq<Listing>, unsorted: seq<MinListing>, rows: seq<MinListing>)
    requires forall x :: x in rows <==> x in unsorted
    requires forall j :: 0 <= j < |ls| ==> HasRow(unsorted, ls[j].worldId, ls[j].hq)
    requires forall i :: 0 <= i < |unsorted| ==> IsGroupMin(ls, unsorted[i].worldId, unsorted[i].hq, unsorted[i].price)
    ensures forall j :: 0 <= j < |ls| ==> HasRow(rows, ls[j].worldId, ls[j].hq)
    ensures forall i :: 0 <= i < |rows| ==> IsGroupMin(ls, rows[i].worldId, rows[i].hq, rows[i].price)
  {
    forall j | 0 <= j < |ls| ensures HasRow(rows, ls[j].worldId, ls[j].hq) {
      var i :| 0 <= i < |unsorted| && KeyOf(unsorted[i]) == (ls[j].worldId, ls[j].hq);
      assert unsorted[i] in rows;
      var k :| 0 <= k < |rows| && rows[k] == unsorted[i];
      assert KeyOf(rows[k]) == (ls[j].worldId, ls[j].hq);
    }
    forall i | 0 <= i < |rows| ensures IsGroupMin(ls, rows[i].worldId, rows[i].hq, rows[i].price) {
      assert rows[i] in unsorted;
      var k :| 0 <= k < |unsorted| && unsorted[k] == rows[i];
    }
  }

  /** The price of the first row of group `(worldId, hq)`, or 0 when there is none. */
  function FindPrice(rows: seq<MinListing>, worldId: int, hq: bool): (p: int)
    ensures !HasRow(rows, worldId, hq) ==> p == 0
    ensures HasRow(rows, worldId, hq) ==>
      exists i :: 0 <= i < |rows| && KeyOf(rows[i]) == (worldId, hq) && rows[i].price == p
    decreases |rows|
  {
    if |rows| == 0 then 0
    else if rows[0].worldId == worldId && rows[0].hq == hq then rows[0].price
    else
      var p := FindPrice(rows[1..], worldId, hq);
      assert forall i :: 1 <= i < |rows| ==> rows[i] == rows[1..][i - 1];
      if HasRow(rows, worldId, hq) then
        assert HasRow(rows[1..], worldId, hq) by {
          var i :| 0 <= i < |rows| && KeyOf(rows[i]) == (worldId, hq);
          assert KeyOf(rows[1..][i - 1]) == (worldId, hq);
        }
        p
      else p
  }

  /**
   `min_listing_on_world`: 0 when the snapshot has no listing of that world and quality;
   otherwise the lowest unit price among exactly those listings.
   */
  function MinListingOnWorld(d: MarketBoardCurrentData, worldId: int, hq: bool): (p: int)
    ensures !HasMatch(d.listings, worldId, hq) ==> p == 0
    ensures HasMatch(d.listings, worldId, hq) ==> IsGroupMin(d.listings, worldId, hq, p)
  {
    var rows := MinListings(d);
    var p := FindPrice(rows, worldId, hq);
    if HasMatch(d.listings, worldId, hq) then
      var j :| 0 <= j < |d.listings| && Matches(d.listings[j], worldId, hq);
      assert HasRow(rows, d.listings[j].worldId, d.listings[j].hq);
      p
    else
      p
  }
}

=== FILE: script.dfy ===
/**
 The stand-alone price script's reusable pieces: the nested-property lookup it applies to
 each aggregated result, its own copy of the batcher, and its global rate-limit counter.
 The requests, the item-name table and the spreadsheet export are left out.
 */
module ItemPriceScript {
  import opened Wrappers
  import opened Faults
  import opened Json
  import opened Helpers

  const MaxRequestsPerSecond := 25
  const MaxItemIdsPerRequest := 100

  // ---------------------------------------------------------------------------------------
  // get_property

  /**
   Walk the keys before the last one: a key the current value does not contain ends the walk
   with no result; the last key must be present.
   */
  function Walk(current: Json, keys: seq<string>, last: string): Result<Option<Json>, Fault>
    decreases |keys|
  {
    if |keys| == 0 then
      var v :- Get(current, last);
      Success(Some(v))
    else
      var present :- Contains(current, keys[0]);
      if present then
        var next :- Get(current, keys[0]);
        Walk(next, keys[1..], last)
      else
        Success(None)
  }

  /**
   `get_property(page, path)`: `None` (here `Success(None)`) when a key before the last is
   missing, the value at the last key otherwise; an empty path fails at `path[-1]`.
   */
  function GetProperty(page: Json, path: seq<string>): (r: Result<Option<Json>, Fault>)
    ensures |path| == 0 ==> r == Failure(IndexError)
    ensures |path| == 1 ==> (r.Success? <==> Get(page, path[0]).Success?)
    ensures |path| == 1 && r.Success? ==> r.value == Some(Get(page, path[0]).value)
  {
    if |path| == 0 then Failure(IndexError)
    else Walk(page, path[..|path| - 1], path[|path| - 1])
  }

  /** The value found by following `keys` through nested objects, if every key is there. */
  function Reach(v: Json, keys: seq<string>): Option<Json>
    decreases |keys|
  {
    if |keys| == 0 then Some(v)
    else if v.JObj? && Lookup(v.fields, keys[0]).Some? then Reach(Lookup(v.fields, keys[0]).value, keys[1..])
    else None
  }

  /** Every value the walk visits before stopping is an object, so no lookup is applied to anything else. */
  predicate ObjectsAlong(v: Json, keys: seq<string>)
    decreases |keys|
  {
    |keys| == 0 || (v.JObj? && (Lookup(v.fields, keys[0]).Some? ==> ObjectsAlong(Lookup(v.fields, keys[0]).value, keys[1..])))
  }

  /**
   Through nested objects the walk agrees with plain reachability: a missing key on the way
   gives no result, and otherwise the result is the last key's lookup in the value reached.
   */
  lemma {:induction false} WalkIsReach(v: Json, keys: seq<string>, last: string)
    requires ObjectsAlong(v, keys)
    ensures Reach(v, keys).None? ==> Walk(v, keys, last) == Success(None)
    ensures Reach(v, keys).Some? ==>
      var g := Get(Reach(v, keys).value, last);
      && (Walk(v, keys, last).Success? <==> g.Success?)
      && (g.Success? ==> Walk(v, keys, last) == Success(Some(g.value)))
      && (g.Failure? ==> Walk(v, keys, last) == Failure(g.error))
    decreases |keys|
  {
    if |keys| > 0 {
      LookupFound(v.fields, keys[0]);
      if Lookup(v.fields, keys[0]).Some? {
        WalkIsReach(Lookup(v.fields, keys[0]).value, keys[1..], last);
      }
    }
  }

  /**
   The two promises of `get_property` over nested objects: a missing intermediate key gives
   `None`; when all intermediate keys exist, the result is the value at the last key, and a
   missing last key raises `KeyError`.
   */
  lemma GetPropertyFollowsPath(page: Json, path: seq<string>)
    requires |path| > 0 && ObjectsAlong(page, path[..|path| - 1])
    ensures Reach(page, path[..|path| - 1]).None? ==> GetProperty(page, path) == Success(None)
    ensures Reach(page, path).Some? ==> GetProperty(page, path) == Success(Reach(page, path))
    ensures Reach(page, path[..|path| - 1]).Some? && Reach(page, path).None? ==>
      GetProperty(page, path).Failure?
    ensures Reach(page, path[..|path| - 1]).Some? && Reach(page, path[..|path| - 1]).value.JObj? &&
            Reach(page, path).None? ==>
      GetProperty(page, path) == Failure(KeyError(path[|path| - 1]))
  {
    var keys := path[..|path| - 1];
    var last := path[|path| - 1];
    WalkIsReach(page, keys, last);
    ReachSnoc(page, keys, last);
    assert keys + [last] == path;
  }

  /** Following one more key is a lookup in the value reached so far. */
  lemma {:induction false} ReachSnoc(v: Json, keys: seq<string>, last: string)
    ensures Reach(v, keys + [last]) ==
      (match Reach(v, keys)
       case None => None
       case Some(w) => if w.JObj? && Lookup(w.fields, last).Some? then Lookup(w.fields, last) else None)
    decreases |keys|
  {
    if |keys| > 0 {
      assert (keys + [last])[0] == keys[0] && (keys + [last])[1..] == keys[1..] + [last];
      if v.JObj? && Lookup(v.fields, keys[0]).Some? {
        ReachSnoc(Lookup(v.fields, keys[0]).value, keys[1..], last);
      }
    }
  }

  /** Looking into a number, a boolean or `None` raises `TypeError` whatever the path. */
  lemma GetPropertyOfScalar(page: Json, path: seq<string>)
    requires page.JNull? || page.JBool? || page.JInt? || page.JReal?
    requires |path| > 0
    ensures GetProperty(page, path) == Failure(TypeError)
  {
  }

  // ---------------------------------------------------------------------------------------
  // batcher and rate_limit

  /** The script's batcher is the arbitrager's: the item ids go out in order, at most 100 per request. */
  lemma RequestBatches(ids: seq<string>)
    ensures IsBatching(Batches(ids, MaxItemIdsPerRequest), ids, MaxItemIdsPerRequest)
    ensures forall i :: 0 <= i < |Batches(ids, MaxItemIdsPerRequest)| ==>
      0 < |Batches(ids, MaxItemIdsPerRequest)[i]| <= MaxItemIdsPerRequest
  {
    BatchesIsBatching(ids, MaxItemIdsPerRequest);
  }

  /**
   `rate_limit`: the global counter after one request, and whether the request paused. The
   counter stays strictly below the limit and is reset to 0 exactly when the limit is reached.
   */
  function RateLimit(counter: int): (r: (int, bool))
    ensures 0 <= counter < MaxRequestsPerSecond ==> 0 <= r.0 < MaxRequestsPerSecond
    ensures r.1 <==> counter + 1 >= MaxRequestsPerSecond
    ensures r.1 ==> r.0 == 0
    ensures !r.1 ==> r.0 == counter + 1
  {
    var next := counter + 1;
    if next >= MaxRequestsPerSecond then (0, true) else (next, false)
  }

  /** The global counter behaves as a `RateLimiter` allowing 25 requests per second. */
  lemma RateLimitIsIncrease(counter: int)
    ensures var t := Increase(RateLimiter(counter, MaxRequestsPerSecond));
      RateLimit(counter) == (t.limiter.counter, t.paused)
  {
  }
}

=== FILE: universalis.dfy ===
/**
 The Universalis records (listings, sale history, stream events, per-item snapshots) and the
 `parse_*` builders that read them from decoded JSON/BSON objects. Each builder reads its
 keys in the order the dataclass constructor receives them, so the first missing key is the
 one whose KeyError escapes. The `...Json` functions build the object a builder expects;
 the round-trip lemmas show the builders keep every field and every line, in order.
 */
module Universalis {
  import opened Wrappers
  import opened Faults
  import opened Json

  datatype Listing = Listing(
    lastReviewTime: int,
    retainerName: string,
    pricePerUnit: int,
    quantity: int,
    worldId: int,
    total: int,
    tax: int,
    hq: bool)

  datatype RecentHistory = RecentHistory(
    hq: bool,
    pricePerUnit: int,
    quantity: int,
    worldId: int,
    buyerName: string,
    total: int,
    timestamp: int)

  datatype SaleEventLine = SaleEventLine(
    hq: bool,
    pricePerUnit: int,
    quantity: int,
    total: int,
    timestamp: int,
    buyerName: string)

  datatype SaleEvent = SaleEvent(itemCode: int, worldId: int, sales: seq<SaleEventLine>)

  datatype ListingEventLine = ListingEventLine(
    pricePerUnit: int,
    quantity: int,
    hq: bool,
    retainerName: string,
    total: int,
    tax: int)

  datatype ListingEvent = ListingEvent(itemCode: int, worldId: int, listings: seq<ListingEventLine>)

  /** The per-item snapshot; `lastUpdate` is the local clock (`int(time.time())`) at parse time. */
  datatype MarketBoardCurrentData = MarketBoardCurrentData(
    itemId: int,
    nqAveragePrice: real,
    hqAveragePrice: real,
    nqAverageSaleVelocity: real,
    hqAverageSaleVelocity: real,
    listings: seq<Listing>,
    recentHistory: seq<RecentHistory>,
    lastUpdate: int)

  /** The item board: item id to its latest snapshot. */
  type Board = map<int, MarketBoardCurrentData>

  // ---------------------------------------------------------------------------------------
  // Builders

  function ParseListing(obj: Json): Result<Listing, Fault> {
    var lastReviewTime :- GetInt(obj, "lastReviewTime");
    var retainerName :- GetString(obj, "retainerName");
    var pricePerUnit :- GetInt(obj, "pricePerUnit");
    var quantity :- GetInt(obj, "quantity");
    var worldId :- GetInt(obj, "worldID");
    var total :- GetInt(obj, "total");
    var tax :- GetInt(obj, "tax");
    var hq :- GetBool(obj, "hq");
    Success(Listing(lastReviewTime, retainerName, pricePerUnit, quantity, worldId, total, tax, hq))
  }

  function ParseSaleEventLine(obj: Json): Result<SaleEventLine, Fault> {
    var hq :- GetBool(obj, "hq");
    var pricePerUnit :- GetInt(obj, "pricePerUnit");
    var quantity :- GetInt(obj, "quantity");
    var total :- GetInt(obj, "total");
    var timestamp :- GetInt(obj, "timestamp");
    var buyerName :- GetString(obj, "buyerName");
    Success(SaleEventLine(hq, pricePerUnit, quantity, total, timestamp, buyerName))
  }

  /** `parse_sale_event`: item and world are kept, and there is one line per input sale, in order. */
  function ParseSaleEvent(obj: Json): (r: Result<SaleEvent, Fault>)
    ensures r.Success? ==> Get(obj, "item") == Success(JInt(r.value.itemCode))
    ensures r.Success? ==> Get(obj, "world") == Success(JInt(r.value.worldId))
    ensures r.Success? ==>
      && Get(obj, "sales").Success?
      && Iterate(Get(obj, "sales").value).Success?
      && var raw := Iterate(Get(obj, "sales").value).value;
         && |r.value.sales| == |raw|
         && forall i :: 0 <= i < |raw| ==> ParseSaleEventLine(raw[i]) == Success(r.value.sales[i])
    ensures obj.JObj? && Lookup(obj.fields, "item").None? ==> r == Failure(KeyError("item"))
  {
    var item :- GetInt(obj, "item");
    var world :- GetInt(obj, "world");
    var salesJson :- Get(obj, "sales");
    var raw :- Iterate(salesJson);
    var sales :- ParseAll(raw, ParseSaleEventLine);
    Success(SaleEvent(item, world, sales))
  }

  function ParseListingEventLine(obj: Json): Result<ListingEventLine, Fault> {
    var pricePerUnit :- GetInt(obj, "pricePerUnit");
    var quantity :- GetInt(obj, "quantity");
    var hq :- GetBool(obj, "hq");
    var retainerName :- GetString(obj, "retainerName");
    var total :- GetInt(obj, "total");
    var tax :- GetInt(obj, "tax");
    Success(ListingEventLine(pricePerUnit, quantity, hq, retainerName, total, tax))
  }

  /** `parse_listing_event`: item and world are kept, and there is one line per input listing, in order. */
  function ParseListingEvent(obj: Json): (r: Result<ListingEvent, Fault>)
    ensures r.Success? ==> Get(obj, "item") == Success(JInt(r.value.itemCode))
    ensures r.Success? ==> Get(obj, "world") == Success(JInt(r.value.worldId))
    ensures r.Success? ==>
      && Get(obj, "listings").Success?
      && Iterate(Get(obj, "listings").value).Success?
      && var raw := Iterate(Get(obj, "listings").value).value;
         && |r.value.listings| == |raw|
         && forall i :: 0 <= i < |raw| ==> ParseListingEventLine(raw[i]) == Success(r.value.listings[i])
    ensures obj.JObj? && Lookup(obj.fields, "item").None? ==> r == Failure(KeyError("item"))
  {
    var item :- GetInt(obj, "item");
    var world :- GetInt(obj, "world");
    var listingsJson :- Get(obj, "listings");
    var raw :- Iterate(listingsJson);
    var listings :- ParseAll(raw, ParseListingEventLine);
    Success(ListingEvent(item, world, listings))
  }

  function ParseRecentHistory(obj: Json): Result<RecentHistory, Fault> {
    var hq :- GetBool(obj, "hq");
    var pricePerUnit :- GetInt(obj, "pricePerUnit");
    var quantity :- GetInt(obj, "quantity");
    var worldId :- GetInt(obj, "worldID");
    var buyerName :- GetString(obj, "buyerName");
    var total :- GetInt(obj, "total");
    var timestamp :- GetInt(obj, "timestamp");
    Success(RecentHistory(hq, pricePerUnit, quantity, worldId, buyerName, total, timestamp))
  }

  /** `parse_market_board_current_data`; `now` is the local clock reading it stamps the snapshot with. */
  function ParseMarketBoardCurrentData(obj: Json, now: int): (r: Result<MarketBoardCurrentData, Fault>)
    ensures r.Success? ==> r.value.lastUpdate == now
    ensures r.Success? ==> Get(obj, "itemID") == Success(JInt(r.value.itemId))
    ensures r.Success? ==>
      && Get(obj, "listings").Success?
      && Iterate(Get(obj, "listings").value).Success?
      && var raw := Iterate(Get(obj, "listings").value).value;
         && |r.value.listings| == |raw|
         && forall i :: 0 <= i < |raw| ==> ParseListing(raw[i]) == Success(r.value.listings[i])
  {
    var itemId :- GetInt(obj, "itemID");
    var nqAverage :- GetNumber(obj, "averagePriceNQ");
    var hqAverage :- GetNumber(obj, "averagePriceHQ");
    var nqVelocity :- GetNumber(obj, "nqSaleVelocity");
    var hqVelocity :- GetNumber(obj, "hqSaleVelocity");
    var listingsJson :- Get(obj, "listings");
    var rawListings :- Iterate(listingsJson);
    var listings :- ParseAll(rawListings, ParseListing);
    var historyJson :- Get(obj, "recentHistory");
    var rawHistory :- Iterate(historyJson);
    var history :- ParseAll(rawHistory, ParseRecentHistory);
    Success(MarketBoardCurrentData(itemId, nqAverage, hqAverage, nqVelocity, hqVelocity, listings, history, now))
  }

  // ---------------------------------------------------------------------------------------
  // The objects the builders expect

  function ListingJson(l: Listing): Json {
    JObj([("lastReviewTime", JInt(l.lastReviewTime)), ("retainerName", JStr(l.retainerName)),
          ("pricePerUnit", JInt(l.pricePerUnit)), ("quantity", JInt(l.quantity)),
          ("worldID", JInt(l.worldId)), ("total", JInt(l.total)), ("tax", JInt(l.tax)),
          ("hq", JBool(l.hq))])
  }

  function SaleEventLineJson(s: SaleEventLine): Json {
    JObj([("hq", JBool(s.hq)), ("pricePerUnit", JInt(s.pricePerUnit)), ("quantity", JInt(s.quantity)),
          ("total", JInt(s.total)), ("timestamp", JInt(s.timestamp)), ("buyerName", JStr(s.buyerName))])
  }

  function ListingEventLineJson(l: ListingEventLine): Json {
    JObj([("pricePerUnit", JInt(l.pricePerUnit)), ("quantity", JInt(l.quantity)), ("hq", JBool(l.hq)),
          ("retainerName", JStr(l.retainerName)), ("total", JInt(l.total)), ("tax", JInt(l.tax))])
  }

  function RecentHistoryJson(h: RecentHistory): Json {
    JObj([("hq", JBool(h.hq)), ("pricePerUnit", JInt(h.pricePerUnit)), ("quantity", JInt(h.quantity)),
          ("worldID", JInt(h.worldId)), ("buyerName", JStr(h.buyerName)), ("total", JInt(h.total)),
          ("timestamp", JInt(h.timestamp))])
  }

  function SaleEventJson(e: SaleEvent): Json {
    JObj([("event", JStr("sales/add")), ("item", JInt(e.itemCode)), ("world", JInt(e.worldId)),
          ("sales", JArr(seq(|e.sales|, i requires 0 <= i < |e.sales| => SaleEventLineJson(e.sales[i]))))])
  }

  function ListingEventJson(e: ListingEvent): Json {
    JObj([("event", JStr("listings/add")), ("item", JInt(e.itemCode)), ("world", JInt(e.worldId)),
          ("listings", JArr(seq(|e.listings|, i requires 0 <= i < |e.listings| => ListingEventLineJson(e.listings[i]))))])
  }

  function MarketBoardCurrentDataJson(d: MarketBoardCurrentData): Json {
    JObj([("itemID", JInt(d.itemId)), ("hasData", JBool(true)),
          ("averagePriceNQ", JReal(d.nqAveragePrice)), ("averagePriceHQ", JReal(d.hqAveragePrice)),
          ("nqSaleVelocity", JReal(d.nqAverageSaleVelocity)), ("hqSaleVelocity", JReal(d.hqAverageSaleVelocity)),
          ("listings", JArr(seq(|d.listings|, i requires 0 <= i < |d.listings| => ListingJson(d.listings[i])))),
          ("recentHistory", JArr(seq(|d.recentHistory|, i requires 0 <= i < |d.recentHistory| => RecentHistoryJson(d.recentHistory[i]))))])
  }

  // ---------------------------------------------------------------------------------------
  // Round trips

  lemma ListingLeadingFields(l: Listing)
    ensures var obj := ListingJson(l);
      && GetInt(obj, "lastReviewTime") == Success(l.lastReviewTime)
      && GetString(obj, "retainerName") == Success(l.retainerName)
      && GetInt(obj, "pricePerUnit") == Success(l.pricePerUnit)
      && GetInt(obj, "quantity") == Success(l.quantity)
  {
    var f := ListingJson(l).fields;
    LookupAt(f, 0, "lastReviewTime");
    LookupAt(f, 1, "retainerName");
    LookupAt(f, 2, "pricePerUnit");
    LookupAt(f, 3, "quantity");
  }

  lemma ListingTrailingFields(l: Listing)
    ensures var obj := ListingJson(l);
      && GetInt(obj, "worldID") == Success(l.worldId)
      && GetInt(obj, "total") == Success(l.total)
      && GetInt(obj, "tax") == Success(l.tax)
      && GetBool(obj, "hq") == Success(l.hq)
  {
    var f := ListingJson(l).fields;
    LookupAt(f, 4, "worldID");
    LookupAt(f, 5, "total");
    LookupAt(f, 6, "tax");
    LookupAt(f, 7, "hq");
  }

  lemma ListingRoundTrip(l: Listing)
    ensures ParseListing(ListingJson(l)) == Success(l)
  {
    ListingLeadingFields(l);
    ListingTrailingFields(l);
  }

  lemma SaleEventLineRoundTrip(s: SaleEventLine)
    ensures ParseSaleEventLine(SaleEventLineJson(s)) == Success(s)
  {
    var f := SaleEventLineJson(s).fields;
    LookupAt(f, 0, "hq");
    LookupAt(f, 1, "pricePerUnit");
    LookupAt(f, 2, "quantity");
    LookupAt(f, 3, "total");
    LookupAt(f, 4, "timestamp");
    LookupAt(f, 5, "buyerName");
  }

  lemma ListingEventLineRoundTrip(l: ListingEventLine)
    ensures ParseListingEventLine(ListingEventLineJson(l)) == Success(l)
  {
    var f := ListingEventLineJson(l).fields;
    LookupAt(f, 0, "pricePerUnit");
    LookupAt(f, 1, "quantity");
    LookupAt(f, 2, "hq");
    LookupAt(f, 3, "retainerName");
    LookupAt(f, 4, "total");
    LookupAt(f, 5, "tax");
  }

  lemma RecentHistoryRoundTrip(h: RecentHistory)
    ensures ParseRecentHistory(RecentHistoryJson(h)) == Success(h)
  {
    var f := RecentHistoryJson(h).fields;
    LookupAt(f, 0, "hq");
    LookupAt(f, 1, "pricePerUnit");
    LookupAt(f, 2, "quantity");
    LookupAt(f, 3, "worldID");
    LookupAt(f, 4, "buyerName");
    LookupAt(f, 5, "total");
    LookupAt(f, 6, "timestamp");
  }

  /** A sale frame decodes to the event it was built from: same item, world and lines in order. */
  lemma SaleEventRoundTrip(e: SaleEvent)
    ensures ParseSaleEvent(SaleEventJson(e)) == Success(e)
  {
    forall s: SaleEventLine ensures ParseSaleEventLine(SaleEventLineJson(s)) == Success(s) {
      SaleEventLineRoundTrip(s);
    }
    var f := SaleEventJson(e).fields;
    LookupAt(f, 1, "item");
    LookupAt(f, 2, "world");
    LookupAt(f, 3, "sales");
    var raw := f[3].1.elems;
    ParseAllRoundTrip(e.sales, raw, SaleEventLineJson, ParseSaleEventLine);
  }

  /** A listing frame decodes to the event it was built from: same item, world and lines in order. */
  lemma ListingEventRoundTrip(e: ListingEvent)
    ensures ParseListingEvent(ListingEventJson(e)) == Success(e)
  {
    forall l: ListingEventLine ensures ParseListingEventLine(ListingEventLineJson(l)) == Success(l) {
      ListingEventLineRoundTrip(l);
    }
    var f := ListingEventJson(e).fields;
    LookupAt(f, 1, "item");
    LookupAt(f, 2, "world");
    LookupAt(f, 3, "listings");
    var raw := f[3].1.elems;
    ParseAllRoundTrip(e.listings, raw, ListingEventLineJson, ParseListingEventLine);
  }

  lemma SnapshotScalarFields(d: MarketBoardCurrentData)
    ensures var obj := MarketBoardCurrentDataJson(d);
      && GetInt(obj, "itemID") == Success(d.itemId)
      && GetNumber(obj, "averagePriceNQ") == Success(d.nqAveragePrice)
      && GetNumber(obj, "averagePriceHQ") == Success(d.hqAveragePrice)
      && GetNumber(obj, "nqSaleVelocity") == Success(d.nqAverageSaleVelocity)
      && GetNumber(obj, "hqSaleVelocity") == Success(d.hqAverageSaleVelocity)
  {
    var f := MarketBoardCurrentDataJson(d).fields;
    LookupAt(f, 0, "itemID");
    LookupAt(f, 2, "averagePriceNQ");
    LookupAt(f, 3, "averagePriceHQ");
    LookupAt(f, 4, "nqSaleVelocity");
    LookupAt(f, 5, "hqSaleVelocity");
  }

  lemma SnapshotListingsField(d: MarketBoardCurrentData)
    ensures var obj := MarketBoardCurrentDataJson(d);
      && Get(obj, "listings") == Success(obj.fields[6].1)
      && Iterate(obj.fields[6].1) == Success(obj.fields[6].1.elems)
      && ParseAll(obj.fields[6].1.elems, ParseListing) == Success(d.listings)
  {
    var f := MarketBoardCurrentDataJson(d).fields;
    LookupAt(f, 6, "listings");
    forall l: Listing ensures ParseListing(ListingJson(l)) == Success(l) {
      ListingRoundTrip(l);
    }
    ParseAllRoundTrip(d.listings, f[6].1.elems, ListingJson, ParseListing);
  }

  lemma SnapshotHistoryField(d: MarketBoardCurrentData)
    ensures var obj := MarketBoardCurrentDataJson(d);
      && Get(obj, "recentHistory") == Success(obj.fields[7].1)
      && Iterate(obj.fields[7].1) == Success(obj.fields[7].1.elems)
      && ParseAll(obj.fields[7].1.elems, ParseRecentHistory) == Success(d.recentHistory)
  {
    var f := MarketBoardCurrentDataJson(d).fields;
    LookupAt(f, 7, "recentHistory");
    forall h: RecentHistory ensures ParseRecentHistory(RecentHistoryJson(h)) == Success(h) {
      RecentHistoryRoundTrip(h);
    }
    ParseAllRoundTrip(d.recentHistory, f[7].1.elems, RecentHistoryJson, ParseRecentHistory);
  }

  /** A snapshot object parses back to the snapshot, stamped with the clock reading given. */
  lemma MarketBoardCurrentDataRoundTrip(d: MarketBoardCurrentData)
    ensures ParseMarketBoardCurrentData(MarketBoardCurrentDataJson(d), d.lastUpdate) == Success(d)
  {
    SnapshotScalarFields(d);
    SnapshotListingsField(d);
    SnapshotHistoryField(d);
  }
}

=== FILE: wrappers.dfy ===
/** Failure-compatible Option and Result types used throughout the model. */
module Wrappers {

  datatype Option<+T> = None | Some(value: T)

  /** `Failure` stands for a Python exception that propagates out of the call. */
  datatype Result<+T, +E> = Success(value: T) | Failure(error: E) {

    predicate IsFailure() {
      Failure?
    }

    function PropagateFailure<U>(): Result<U, E>
      requires Failure?
    {
      Failure(error)
    }

    function Extract(): T
      requires Success?
    {
      value
    }
  }
}

/** The Python exceptions the modelled code can raise, as values. */
module Faults {

  datatype Fault =
    | KeyError(key: string)     // `d[key]` on a dict without that key
    | TypeError                 // subscripting, `in` or iterating a value of the wrong kind
    | AttributeError            // `.items()` on something that is not a dict
    | AssertionError            // a failed `assert`
    | ZeroDivisionError         // division by a zero average price
    | ConnectionError           // an HTTP request that raised instead of answering
    | JsonDecodeError           // a response body that is not JSON
    | IndexError                // `path[-1]` on an empty list
}
